=== FILE: README.md ===
# SamplePay core, modelled in Dafny

SamplePay is the demo Android payment app of the web-payments samples. A
browser (Chrome or Chromium) starts it with a PAY intent, asks it
IS_READY_TO_PAY through a bound service, and exchanges payment-detail
updates with it over an update service. This project models the app's
sequential logic underneath the Android plumbing, and proves properties of it:

- **Caller authentication** (`Fingerprints`, `Signing`). This covers
  parsing a colon-separated hex fingerprint into signed bytes, and the
  fallback signature matcher of `hasSigningCertificates`. It also covers
  the five-package allow-list of `authorizeCaller`, where each name is
  paired with its own channel's fingerprint.
- **The update-channel identity gate** (`UpdateGate`). The service's
  `LocalBinder` records who handed it the update service. It gives the
  service out only to a structurally equal `ApplicationIdentity`, and the
  latest setter wins.
- **Bundle decoding** (`Bundles`, `Amounts`, `Shipping`, `Options`,
  `Addresses`, `BundleUtils`, `DetailsUpdate`, `RequestParams`).
  These are the `from` factories and bundle helpers, with their defaults
  and failure points. A bundle is a map from keys to tagged values. An
  Android getter treats a value of the wrong type as absent.
  `SavedStateHandle.get` treats it as a cast failure instead. A Kotlin
  exception is an `Err` of `Result`.
- **String renderers**. These are `PaymentAddress.toString`/`asBundle`
  and `AddressErrors.toString`. The latter is modelled as written: a
  non-empty phone error assigns rather than appends, so it discards the
  lines collected before it.
- **Screen state and result composition**. This part covers:
  - the Compose view model (`CheckoutViewModel`), the legacy payment
    screen (`LegacyActivity`) and its view model (`LegacyViewModel`);
  - the legacy update activity (`UpdateActivity`) and the legacy update
    callback (`LegacyUpdateService`);
  - the IS_READY_TO_PAY service (`ReadyToPay`);
  - how each merges an update, chooses an update request, and builds
    result extras.

The platform is reached only through parameters, which carry no
definition. They stand for:
- JSON text parsing, as a function from text to a string map;
- SHA-256 and the package lookups;
- the SDK 28+ `hasSigningCertificate` check;
- `getApplicationSignatures`;
- the calling package name;
- the fingerprint string resources and the configured method name.

The files come from different generations of the app, and some
cross-file signatures do not match:
- `PaymentActivity` reads `paymentOptions` and `shippingOptions` from
  its params. The Compose view model destructures ten components. Neither
  exists on `PaymentParams` as written. Both screens therefore get a
  `RequestParams.CheckoutParams` record from a decoder parameter.
- Callers read `stringifiedPaymentMethodErrors`. The field is called
  `paymentMethodErrors`.
- `PaymentActivity.kt:151` and `SampleIsReadyToPayService.kt:40` call
  `packageManager.authorizeCaller(callingPackage, application)`. No such
  function exists among these files. The only caller check defined is
  `Application.authorizeCaller(packageName)` in `PackageManagerUtils.kt:66`,
  which tries all five Chrome channels. Both calls are resolved to it,
  as `Signing.AuthorizeCaller(app, callingPackage)`. The older check in the
  legacy view model tries only the release fingerprint (`LegacyViewModel`),
  so the version these calls were written against may have behaved
  differently.
- `PaymentActivity.kt:203-214` builds its addresses with eleven positional
  arguments, starting with an array of lines. `PaymentAddress` declares
  thirteen fields, starting with `id`, `label` and a list of lines. The
  legacy screen therefore takes the checked address as a parameter
  (`LegacyActivity.AddressChangeRequest` and `LegacyActivity.PayerForm`).

The identity gate follows the code. Each
`setPaymentDetailsUpdateService` overwrites the recorded identity, so the
latest setter wins. It is not the first binder that wins.

The legacy screen never puts "callingBrowserPackage" into the intents it
starts. `PaymentDetailsUpdateActivity` declares that property non-null.
So as the two files are written, every legacy change request fails in the
update activity before it binds (`LegacyActivity.OptionChangeLacksBrowserPackage` and its two siblings).
The dispatch lemmas show what each request would reach if the package were supplied.

## Model

| member | source | states |
|---|---|---|
| Fingerprints.ToByte | SamplePay/app/src/main/java/com/example/android/samplepay/PackageManagerUtils.kt:35 | `toByte` keeps the value modulo 256, as a signed byte |
| Fingerprints.Split | SamplePay/app/src/main/java/com/example/android/samplepay/PackageManagerUtils.kt:35 | `split(":")` gives one part more than the number of colons, and no part contains a colon |
| Fingerprints.JoinSplit | SamplePay/app/src/main/java/com/example/android/samplepay/PackageManagerUtils.kt:35 | joining the parts of `split` with the separator gives the input back, so splitting loses nothing |
| Fingerprints.ParseHexInt | SamplePay/app/src/main/java/com/example/android/samplepay/PackageManagerUtils.kt:35 | `toInt(16)` succeeds only on a non-empty string of hex digits with an optional leading sign and at least one digit; the value lies in Int range, is non-positive after "-" and non-negative otherwise |
| Fingerprints.SplitJoin | SamplePay/app/src/main/java/com/example/android/samplepay/PackageManagerUtils.kt:35 | splitting the ":"-join of colon-free groups gives the groups back |
| Fingerprints.ParseGroups | SamplePay/app/src/main/java/com/example/android/samplepay/PackageManagerUtils.kt:35 | every group parses as base-16 Int iff the whole map succeeds; one byte per group, each the group's value truncated to 8 bits; a failure comes from some group that does not parse |
| Fingerprints.ParseFingerprint | SamplePay/app/src/main/java/com/example/android/samplepay/PackageManagerUtils.kt:34-36 | output length is the number of colons plus one; each byte is its group's base-16 value truncated to 8 bits; any empty group fails; the empty string fails with NumberFormatException |
| Fingerprints.RenderByteParses | SamplePay/app/src/main/java/com/example/android/samplepay/PackageManagerUtils.kt:35 | a byte rendered as two upper-case hex digits parses back to the same byte |
| Fingerprints.RoundTrip | SamplePay/app/src/main/java/com/example/android/samplepay/PackageManagerUtils.kt:27-36 | rendering any non-empty byte sequence as two-digit hex groups joined by ":" and parsing it gives back the same bytes |
| Signing.AnyContentEquals | SamplePay/app/src/main/java/com/example/android/samplepay/PackageManagerUtils.kt:62 | true iff some expected certificate has the same content as the digest |
| Signing.AllFound | SamplePay/app/src/main/java/com/example/android/samplepay/PackageManagerUtils.kt:62 | true iff every signature digest content-equals some expected certificate |
| Signing.HasSigningCertificates | SamplePay/app/src/main/java/com/example/android/samplepay/PackageManagerUtils.kt:45-64 | on SDK 28+ with one certificate the platform check decides; otherwise an installed package with signatures always gets an answer, true iff the signer count equals the certificate count and each signer's digest is among the certificates; a missing package throws NameNotFound and null signatures throw NullPointer |
| Signing.FallbackMatchIsNotSetEquality | SamplePay/app/src/main/java/com/example/android/samplepay/PackageManagerUtils.kt:59-62 | the fallback matcher accepts digests [[1],[1]] against certificates [[1],[2]], so it is not set equality |
| Signing.SingleCertificateIsEquality | SamplePay/app/src/main/java/com/example/android/samplepay/PackageManagerUtils.kt:59-62 | against a single certificate the matcher holds iff there is exactly one signer and its digest equals it |
| Signing.CountMismatchRejects | SamplePay/app/src/main/java/com/example/android/samplepay/PackageManagerUtils.kt:61 | a signer count that differs from the certificate count always gives false |
| Signing.AuthorizeCaller | SamplePay/app/src/main/java/com/example/android/samplepay/PackageManagerUtils.kt:66-78 | null and unlisted package names are refused; each of the five listed names is checked against exactly its own channel's fingerprint; true only for a listed name |
| Signing.AuthorizeCallerPairsChannels | SamplePay/app/src/main/java/com/example/android/samplepay/PackageManagerUtils.kt:67-77 | for each of the five allow-listed names, the answer is the signature check against exactly that channel's fingerprint |
| UpdateGate.GetUpdateService | SamplePay/app/src/main/java/com/example/android/samplepay/service/SamplePaymentDetailsUpdateService.kt:58-67 | the stored service is returned iff the presented identity equals the recorded one (same package, same ordered signatures); otherwise IllegalStateException |
| UpdateGate.Fresh | SamplePay/app/src/main/java/com/example/android/samplepay/service/SamplePaymentDetailsUpdateService.kt:39 | a fresh binder records no identity and refuses every identity |
| UpdateGate.SetPaymentDetailsUpdateService | SamplePay/app/src/main/java/com/example/android/samplepay/service/SamplePaymentDetailsUpdateService.kt:49-56 | afterwards exactly the caller's identity retrieves exactly the new service; a caller without a package name leaves every retrieval refused |
| UpdateGate.LastSet | SamplePay/app/src/main/java/com/example/android/samplepay/service/SamplePaymentDetailsUpdateService.kt:49-56 | finds the latest setter call in a history, if there is one |
| UpdateGate.LatestSetterWins | SamplePay/app/src/main/java/com/example/android/samplepay/service/SamplePaymentDetailsUpdateService.kt:49-67 | after any history of calls, retrieval succeeds exactly for the latest setter's identity, and yields that setter's service |
| UpdateGate.CallbacksLeaveGate | SamplePay/app/src/main/java/com/example/android/samplepay/service/SamplePaymentDetailsUpdateService.kt:41-47 | `updateWith` and `paymentDetailsNotUpdated` leave the gate and every retrieval unchanged |
| UpdateGate.LocalBinder.RequestUpdateService | SamplePay/app/src/main/java/com/example/android/samplepay/service/SamplePaymentDetailsUpdateService.kt:58-67 | the binder method succeeds iff the identity matches the recorded one, returns the stored service, and otherwise fails with IllegalState |
| Amounts.Parse | SamplePay/app/src/main/java/com/example/android/samplepay/model/PaymentDetails.kt:27-36 | succeeds iff the JSON parses and has "currency" and "value"; copies both; any failure becomes a RuntimeException |
| Amounts.From | SamplePay/app/src/main/java/com/example/android/samplepay/model/PaymentDetails.kt:38-42 | succeeds iff both strings are present and copies them; a missing currency, then a missing value, fail with NullPointer |
| Amounts.FromToBundle | SamplePay/app/src/main/java/com/example/android/samplepay/model/PaymentDetails.kt:38-42 | decoding the "currency"/"value" bundle of any amount gives that amount back |
| Amounts.ParseAgreesWithFrom | SamplePay/app/src/main/java/com/example/android/samplepay/model/PaymentDetails.kt:27-42 | on text that parses, `parse` succeeds exactly when `from` succeeds on the same members, and both give the same amount |
| Shipping.From | SamplePay/app/src/main/java/com/example/android/samplepay/model/ShippingOption.kt:29-37 | fails iff the "amount" bundle is missing; id, label and the amount's currency and value default to "", selected to false |
| Shipping.FromToBundle | SamplePay/app/src/main/java/com/example/android/samplepay/model/ShippingOption.kt:29-37 | decoding the bundle of any option (id, label, nested amount, selected flag) gives that option back |
| Options.From | SamplePay/app/src/main/java/com/example/android/samplepay/model/PaymentOptions.kt:29-37 | a null bundle gives all flags false and "shipping"; each flag is read only from its own key and defaults to false; shippingType defaults to "shipping" |
| Options.RequireContactFromBundle | SamplePay/app/src/main/java/com/example/android/samplepay/model/PaymentOptions.kt:40-41 | contact is required iff a payer name, phone or email flag is set; requesting shipping alone never requires it |
| Addresses.AsBundle | SamplePay/app/src/main/java/com/example/android/samplepay/model/PaymentAddress.kt:36-50 | exactly the eleven address keys, without id and label; each string key holds its same-named field and "addressLines" holds the lines as a string array, in order |
| Addresses.LinesTextSplit | SamplePay/app/src/main/java/com/example/android/samplepay/model/PaymentAddress.kt:54 | each address line appears in order, followed by ", " |
| Addresses.ToString | SamplePay/app/src/main/java/com/example/android/samplepay/model/PaymentAddress.kt:52-62 | "recipient, organization, ", then each line with ", ", then the city line (with region when non-empty, else with dependent locality), ending in a newline |
| Addresses.ErrorsFrom | SamplePay/app/src/main/java/com/example/android/samplepay/model/AddressErrors.kt:35-48 | each field is its same-named key's string, or null |
| Addresses.ErrorsFromBundle | SamplePay/app/src/main/java/com/example/android/samplepay/model/AddressErrors.kt:35-48 | decoding the bundle holding each non-null error under its own name gives the same address errors back |
| Addresses.ErrorsToString | SamplePay/app/src/main/java/com/example/android/samplepay/model/AddressErrors.kt:51-84 | without a phone error, one line per non-empty field in declaration order; with one, the phone line and then only the later fields' lines |
| Addresses.ErrorTextEndsLine | SamplePay/app/src/main/java/com/example/android/samplepay/model/AddressErrors.kt:51-84 | a non-empty error text ends with a newline |
| Addresses.NoErrorsNoText | SamplePay/app/src/main/java/com/example/android/samplepay/model/AddressErrors.kt:51-84 | all fields null or empty give "" |
| BundleUtils.GetPaymentAmount | SamplePay/app/src/main/java/com/example/android/samplepay/model/BundleUtils.kt:34-46 | null exactly when there is no string under the key; a malformed amount propagates the failure instead of giving null |
| BundleUtils.MapShippingOptions | SamplePay/app/src/main/java/com/example/android/samplepay/model/BundleUtils.kt:48-50 | maps `ShippingOption.from` element-wise, keeping length and order, and fails iff some element fails |
| BundleUtils.GetShippingOptions | SamplePay/app/src/main/java/com/example/android/samplepay/model/BundleUtils.kt:48-50 | empty when there is no bundle array, otherwise the element-wise decoding |
| BundleUtils.MethodDataOf | SamplePay/app/src/main/java/com/example/android/samplepay/model/BundleUtils.kt:54 | same key set as the nested bundle; each value is its string, or "[]" |
| BundleUtils.GetMethodData | SamplePay/app/src/main/java/com/example/android/samplepay/model/BundleUtils.kt:52-55 | empty without a nested bundle under the key, otherwise its method data |
| BundleUtils.StateGetMethodData | SamplePay/app/src/main/java/com/example/android/samplepay/model/BundleUtils.kt:57-60 | absent or null gives the empty map, a bundle gives the same method data, and any other type is a cast failure |
| BundleUtils.StateGetShippingOptions | SamplePay/app/src/main/java/com/example/android/samplepay/model/BundleUtils.kt:62-64 | absent or null gives the empty list, an array gives the same decoding, and any other type is a cast failure |
| DetailsUpdate.From | SamplePay/app/src/main/java/com/example/android/samplepay/model/PaymentDetailsUpdate.kt:29-37 | total is null iff there is no total bundle, and its decoding failure propagates; shipping options are never null and are empty when absent; error and payment-method errors come from "error" and "stringifiedPaymentMethodErrors"; address errors are null iff there is no bundle |
| RequestParams.From | SamplePay/app/src/main/java/com/example/android/samplepay/model/PaymentParams.kt:83-95 | method names default to empty, the strings to "", modifiers to "[]"; method data is `getMethodData("methodData")`; total is null without a string and fails when malformed |
| RequestParams.ReadyFrom | SamplePay/app/src/main/java/com/example/android/samplepay/model/IsReadyToPayParams.kt:55-63 | the same defaults and method data as `PaymentParams.from`; it fails only if the certificate-chain decoder, which is not modelled, does |
| RequestParams.SharedFieldsAgree | SamplePay/app/src/main/java/com/example/android/samplepay/model/IsReadyToPayParams.kt:55-63 | on the same extras both decoders agree on every shared field |
| CheckoutViewModel.FindAddress | SamplePay/app/src/main/java/com/example/android/samplepay/ui/PaymentViewModel.kt:190-194 | the first address with the id, or null iff none has it |
| CheckoutViewModel.AddressIdsDistinct | SamplePay/app/src/main/java/com/example/android/samplepay/ui/PaymentViewModel.kt:267-313 | the three fixed addresses have distinct ids, and only those three ids find an address |
| CheckoutViewModel.FirstSelectedId | SamplePay/app/src/main/java/com/example/android/samplepay/ui/PaymentViewModel.kt:164 | the id of the first option with selected set, or null iff none is selected |
| CheckoutViewModel.Init | SamplePay/app/src/main/java/com/example/android/samplepay/ui/PaymentViewModel.kt:146-168 | Started only with a calling package and "paymentOptions" in the state, otherwise None; the identity is the package with its signatures; there is no error text yet, and the default option is the first selected one |
| CheckoutViewModel.UpdateWith | SamplePay/app/src/main/java/com/example/android/samplepay/ui/PaymentViewModel.kt:113-137 | nothing happens outside Started; otherwise only shipping options, amount, promotion error and error text change; the error text is null without an error, the error alone without address errors, else the error, a newline and the address errors; the `!!` never fires |
| CheckoutViewModel.OnServiceConnected | SamplePay/app/src/main/java/com/example/android/samplepay/ui/PaymentViewModel.kt:89-101 | a started payment gets the service iff the gate recorded its identity; otherwise the result becomes an error and the held service is unchanged |
| CheckoutViewModel.ConnectAfterHistory | SamplePay/app/src/main/java/com/example/android/samplepay/ui/PaymentViewModel.kt:89-101 | over any binder history, the first connection holds the service exactly when the latest setter is the app that started the payment; otherwise it holds none and reports an error |
| CheckoutViewModel.ApplyPromotionCode | SamplePay/app/src/main/java/com/example/android/samplepay/ui/PaymentViewModel.kt:176-184 | a promotion-code change is sent iff a service is held |
| CheckoutViewModel.UpdateShippingOption | SamplePay/app/src/main/java/com/example/android/samplepay/ui/PaymentViewModel.kt:186-188 | the option change is sent iff a service is held |
| CheckoutViewModel.UpdateShippingAddress | SamplePay/app/src/main/java/com/example/android/samplepay/ui/PaymentViewModel.kt:190-194 | with a service held, fails iff the id is none of the three fixed ids, and otherwise sends that address's bundle |
| CheckoutViewModel.Pay | SamplePay/app/src/main/java/com/example/android/samplepay/ui/PaymentViewModel.kt:196-231 | outside Started the cast fails; otherwise the result always holds the method name, the fixed details and the promotion code (or null) |
| CheckoutViewModel.PayPayerFields | SamplePay/app/src/main/java/com/example/android/samplepay/ui/PaymentViewModel.kt:204-215 | each payer field is present iff the merchant asked for it, holding the contact detail given (or null) |
| CheckoutViewModel.PayShippingFields | SamplePay/app/src/main/java/com/example/android/samplepay/ui/PaymentViewModel.kt:217-222 | shippingAddress and shippingOptionId are present iff shipping is requested, holding the chosen address's bundle and the chosen option id (each or null) |
| CheckoutViewModel.PayKeys | SamplePay/app/src/main/java/com/example/android/samplepay/ui/PaymentViewModel.kt:196-231 | the result holds no key besides the eight written by `pay` |
| LegacyActivity.LastSelectedId | SamplePay/app/src/main/java/com/example/android/samplepay/PaymentActivity.kt:161-180 | the id of the last option flagged selected, or the previous selection when none is flagged |
| LegacyActivity.CreateShippingOptions | SamplePay/app/src/main/java/com/example/android/samplepay/PaymentActivity.kt:161-180 | clears the error message, selects the last option flagged selected (keeping the old selection when none is), and leaves the params and promotion error unchanged |
| LegacyActivity.HandleIntent | SamplePay/app/src/main/java/com/example/android/samplepay/PaymentActivity.kt:133-158 | cancels unless there is a PAY intent with extras; the error message is empty iff the caller is authorised (or the message text is empty); the selection is the last selected option when shipping is requested |
| LegacyActivity.OnShippingOptionChecked | SamplePay/app/src/main/java/com/example/android/samplepay/PaymentActivity.kt:182-196 | a request is started only when the checked id differs from the selection, which it then becomes; before any selection the late-initialised id throws |
| LegacyActivity.AddressChangeRequest | SamplePay/app/src/main/java/com/example/android/samplepay/PaymentActivity.kt:250-260 | the request carries only "selectedAddress": the checked address's bundle, or null |
| LegacyActivity.ApplyPromotion | SamplePay/app/src/main/java/com/example/android/samplepay/PaymentActivity.kt:349-359 | clears the promotion error and sends only "promotionCode" |
| LegacyActivity.OnActivityResult | SamplePay/app/src/main/java/com/example/android/samplepay/PaymentActivity.kt:263-306 | changes nothing unless request code 0, RESULT_OK and data; otherwise shipping options, total and promotion error are replaced when present; the message is the error plus a newline (else ""), then the address errors |
| LegacyActivity.UpdateClearsCallerError | SamplePay/app/src/main/java/com/example/android/samplepay/PaymentActivity.kt:263-306 | an update with neither error nor address errors still leaves the error message empty, erasing the caller-not-Chrome message |
| LegacyActivity.Pay | SamplePay/app/src/main/java/com/example/android/samplepay/PaymentActivity.kt:313-347 | fails iff shipping is requested with no option selected, reading the late-initialised id; otherwise the result always holds the Sample Pay web app as method name and the fixed details |
| LegacyActivity.PayPayerFields | SamplePay/app/src/main/java/com/example/android/samplepay/PaymentActivity.kt:326-340 | each payer field is present iff requested, holding what the user typed |
| LegacyActivity.PayShippingFields | SamplePay/app/src/main/java/com/example/android/samplepay/PaymentActivity.kt:341-346 | shippingAddress and shippingOptionId are present iff shipping is requested, holding the checked address's bundle (or null) and the selected option id |
| LegacyActivity.PayKeys | SamplePay/app/src/main/java/com/example/android/samplepay/PaymentActivity.kt:313-347 | the result holds no key besides the seven written by `pay` |
| Options.PayerExtras | SamplePay/app/src/main/java/com/example/android/samplepay/PaymentActivity.kt:326-340 | each payer key is present iff its flag is set, holding the given value, and no other key appears |
| Options.ShippingExtras | SamplePay/app/src/main/java/com/example/android/samplepay/ui/PaymentViewModel.kt:217-222 | both shipping keys are present iff shipping is requested, holding the given values, and no other key appears |
| LegacyActivity.OptionChangeLacksBrowserPackage | SamplePay/app/src/main/java/com/example/android/samplepay/PaymentDetailsUpdateActivity.kt:43-51 | a shipping-option change from the legacy screen makes the update activity fail on the missing browser package |
| LegacyActivity.AddressChangeLacksBrowserPackage | SamplePay/app/src/main/java/com/example/android/samplepay/PaymentDetailsUpdateActivity.kt:43-51 | an address change from the legacy screen makes the update activity fail on the missing browser package |
| LegacyActivity.PromotionLacksBrowserPackage | SamplePay/app/src/main/java/com/example/android/samplepay/PaymentDetailsUpdateActivity.kt:43-51 | a promotion code from the legacy screen makes the update activity fail on the missing browser package |
| LegacyActivity.OptionChangeDispatch | SamplePay/app/src/main/java/com/example/android/samplepay/PaymentDetailsUpdateActivity.kt:66-98 | with the browser package added, an option change reaches `changeShippingOption` with the checked id |
| LegacyActivity.AddressChangeDispatch | SamplePay/app/src/main/java/com/example/android/samplepay/PaymentDetailsUpdateActivity.kt:66-98 | with the browser package added, an address change reaches `changeShippingAddress` with the address's bundle, or the empty bundle |
| LegacyActivity.PromotionDispatch | SamplePay/app/src/main/java/com/example/android/samplepay/PaymentDetailsUpdateActivity.kt:66-98 | with the browser package added, a promotion reaches `changePaymentMethod` with the code |
| LegacyActivity.AnswerReachesScreen | SamplePay/app/src/main/java/com/example/android/samplepay/PaymentDetailsUpdateActivity.kt:120-131 | the details the browser sends are what the legacy screen decodes, and "not updated" leaves the screen unchanged |
| UpdateActivity.OnCreate | SamplePay/app/src/main/java/com/example/android/samplepay/PaymentDetailsUpdateActivity.kt:43-51 | fails iff the browser package is missing; a missing address becomes the empty bundle; no details have arrived yet |
| UpdateActivity.Dispatch | SamplePay/app/src/main/java/com/example/android/samplepay/PaymentDetailsUpdateActivity.kt:66-98 | a promotion code wins, then a selected option id, otherwise the address change |
| UpdateActivity.Unbind | SamplePay/app/src/main/java/com/example/android/samplepay/PaymentDetailsUpdateActivity.kt:120-131 | unbinds iff bound and is unbound afterwards; the result is RESULT_OK and carries "updatedPaymentParams" iff details were received |
| UpdateActivity.OnUpdateWith | SamplePay/app/src/main/java/com/example/android/samplepay/PaymentDetailsUpdateActivity.kt:60-63 | the result carries the received details under "updatedPaymentParams" |
| UpdateActivity.OnPaymentDetailsNotUpdated | SamplePay/app/src/main/java/com/example/android/samplepay/PaymentDetailsUpdateActivity.kt:55-58 | with nothing received the result has no extras at all |
| LegacyViewModel.Initialize | SamplePay/app/src/main/java/com/example/android/samplepay/PaymentViewModel.kt:43-62 | the error code is 0 iff there is a calling package signed with the release certificate; a null package always gives the caller-not-Chrome code; origin, merchant name and total are copied from the params |
| LegacyViewModel.AgreesWithAuthorizeCallerOnStable | SamplePay/app/src/main/java/com/example/android/samplepay/PaymentViewModel.kt:49-58 | for stable Chrome with the stable fingerprint the error code agrees with `authorizeCaller` |
| LegacyUpdateService.UpdateWith | SamplePay/app/src/main/java/com/example/android/samplepay/SamplePaymentDetailsUpdateService.kt:44-54 | shipping options, total and address errors are forwarded only when present; error and promotion error are always set, to "" when absent; the connected service is untouched |
| LegacyUpdateService.UpdateAlwaysReplacesShippingOptions | SamplePay/app/src/main/java/com/example/android/samplepay/SamplePaymentDetailsUpdateService.kt:46-48 | every successful update forwards shipping options, and an update without them empties the list |
| LegacyUpdateService.SetPaymentDetailsUpdateService | SamplePay/app/src/main/java/com/example/android/samplepay/SamplePaymentDetailsUpdateService.kt:56-59 | the given service becomes the connected one and nothing else changes |
| ReadyToPay.AreParametersValid | SamplePay/app/src/main/java/com/example/android/samplepay/SampleIsReadyToPayService.kt:86-90 | valid iff there is exactly one method name and it is the configured one |
| ReadyToPay.OnBind | SamplePay/app/src/main/java/com/example/android/samplepay/SampleIsReadyToPayService.kt:68-81 | no intent or extras gives the rejecting binder; otherwise accepting iff the parameters are valid |
| ReadyToPay.IsReadyToPay | SamplePay/app/src/main/java/com/example/android/samplepay/SampleIsReadyToPayService.kt:36-66 | the rejecting binder always answers false; the accepting one answers exactly `authorizeCaller` |
| ReadyToPay.ReadyNeedsMethodAndChrome | SamplePay/app/src/main/java/com/example/android/samplepay/SampleIsReadyToPayService.kt:36-90 | a "ready" answer needs exactly this app's method name in the request, and an allow-listed caller |

## Left out

- Android views, Compose UI, navigation, logging, threading (`runOnUiThread`, `viewModelScope`), StateFlow/LiveData and Binder/AIDL transport. State is passed and returned explicitly.
- `bindService`/`unbindService` and `resolveService`. Whether binding succeeds is a parameter, and the fallback component name in `bind` is not modelled.
- The SDK 28+ `hasSigningCertificate`, SHA-256, `getPackageInfo`, `getApplicationSignatures` and `getNameForUid`. They are oracle parameters, with no properties assumed.
- JSON text. Parsing is an oracle from text to a string map, and `JSONObject.toString` is not modelled: the promotion-code request carries the object itself.
- `getCertificateChain` and the top-level certificate chain of both parameter records. Their decoder is not part of this model.
- RequestParams.From: fails only when the total does. `PaymentParams.from` also calls `getCertificateChain`, which is not part of this model, so whether that call can throw is not stated.
- RequestParams.ReadyFrom: returns a value for every bundle. `IsReadyToPayParams.from` also calls `getCertificateChain`, which is not part of this model, so whether that call can throw is not stated.
- The decoder `PaymentActivity` and the Compose view model were written against. It is not part of this model, so both take `CheckoutParams` from a decoder parameter.
- Fingerprints.ParseHexInt: Kotlin's `toInt(16)` also accepts non-ASCII Unicode digits. The model accepts only ASCII hex digits with an optional sign, within Int range.
- Bundles.GetStringArrayList: `putStringArray` and `getStringArrayList` differ on Android (an array is not an ArrayList). The model uses one string-array value for both.
- Kotlin's `Set<ByteArray>` uses reference equality. The expected certificates are therefore a sequence, and duplicates count.
- The legacy view model reads the release fingerprint from a string resource. It is a parameter, as are the channel fingerprints and the configured SAMPLE_PAY_METHOD_NAME.
- `PaymentActivity`'s view-model calls pass arguments that its `PaymentViewModel` does not take. The screen's own state is modelled, and the view model on its own terms.
- The legacy callback's view-model setters are not part of this model. `LegacyUpdateService` records the last value pushed to each.
- Re-laying out the legacy shipping options calls `RadioGroup.check`. That re-enters the option listener once the listener is installed. This re-entrant callback is not modelled.
- The label texts built for radio buttons and titles (`capitalize`, string formats) are presentation only.
- service/SampleIsReadyToPayService.kt always answers true. It has no logic beyond plumbing.
- The Compose screens' guards (Pay enabled iff there is no error text, blank promotion codes ignored) belong to the UI files, which are not part of this model.
- CheckoutViewModel.Pay: looks the chosen address up in the started payment's own address list rather than in the top-level `paymentAddresses`. `Init` always stores that same fixed list in the payment, so the two agree in every started payment `Init` produces.

=== FILE: addresses.dfy ===
/** Addresses: `PaymentAddress` of model/PaymentAddress.kt (the address sent
    to the browser) and `AddressErrors` of model/AddressErrors.kt (the
    per-field complaints the browser sends back). */
module Addresses {
  import opened Wrappers
  import opened Bundles

  /** `label` is a reserved word in Dafny, hence `labelText`. */
  datatype PaymentAddress = PaymentAddress(
    id: string,
    labelText: string,
    addressLines: seq<string>,
    countryCode: string,
    country: string,
    city: string,
    dependentLocality: string,
    organization: string,
    phone: string,
    postalCode: string,
    recipient: string,
    region: string,
    sortingCode: string)

  /** The single-string keys `asBundle` writes. */
  const StringKeys: set<string> :=
    {"countryCode", "country", "city", "dependentLocality", "organization", "phone",
     "postalCode", "recipient", "region", "sortingCode"}

  /** The field of `a` named `key`, for the keys in `StringKeys`. */
  function StringField(a: PaymentAddress, key: string): string
    requires key in StringKeys
  {
    match key
    case "countryCode" => a.countryCode
    case "country" => a.country
    case "city" => a.city
    case "dependentLocality" => a.dependentLocality
    case "organization" => a.organization
    case "phone" => a.phone
    case "postalCode" => a.postalCode
    case "recipient" => a.recipient
    case "region" => a.region
    case "sortingCode" => a.sortingCode
  }

  /** `asBundle`: exactly the eleven address keys (id and label stay behind),
      each holding its same-named field, the address lines in order. */
  function AsBundle(a: PaymentAddress): (r: Bundle)
    ensures r.Keys == StringKeys + {"addressLines"}
    ensures "id" !in r && "label" !in r
    ensures r["addressLines"] == StrArray(a.addressLines)
    ensures forall key :: key in StringKeys ==> GetString(r, key) == Some(StringField(a, key))
  {
    map key | key in StringKeys + {"addressLines"} ::
      if key == "addressLines" then StrArray(a.addressLines) else Str(StringField(a, key))
  }

  /** Each address line followed by ", ", in order. */
  function LinesText(lines: seq<string>): string
    decreases |lines|
  {
    if |lines| == 0 then "" else LinesText(lines[..|lines| - 1]) + lines[|lines| - 1] + ", "
  }

  /** Line `i` sits between the lines before it and the lines after it. */
  lemma {:induction false} LinesTextSplit(lines: seq<string>, i: nat)
    requires i < |lines|
    ensures LinesText(lines) == LinesText(lines[..i]) + lines[i] + ", " + LinesText(lines[i + 1..])
    decreases |lines|
  {
    var n := |lines|;
    if i == n - 1 {
      assert lines[..n - 1] == lines[..i];
      assert lines[i + 1..] == [];
    } else {
      var init := lines[..n - 1];
      LinesTextSplit(init, i);
      assert init[..i] == lines[..i];
      assert init[i] == lines[i];
      var rest := lines[i + 1..];
      assert rest[..|rest| - 1] == init[i + 1..];
      assert rest[|rest| - 1] == lines[n - 1];
    }
  }

  /** `toString`: "recipient, organization, ", then every address line
      followed by ", ", then "city, region, postalCode, country" when the
      region is non-empty and "dependentLocality, city, postalCode, country"
      otherwise, then a newline. */
  method ToString(a: PaymentAddress) returns (text: string)
    ensures text == a.recipient + ", " + a.organization + ", " + LinesText(a.addressLines)
                    + (if a.region != "" then a.city + ", " + a.region + ", " + a.postalCode + ", " + a.country + "\n"
                       else a.dependentLocality + ", " + a.city + ", " + a.postalCode + ", " + a.country + "\n")
    ensures |text| > 0 && text[|text| - 1] == '\n'
  {
    text := a.recipient + ", " + a.organization + ", ";
    ghost var head := text;
    var i := 0;
    while i < |a.addressLines|
      invariant 0 <= i <= |a.addressLines|
      invariant text == head + LinesText(a.addressLines[..i])
    {
      assert a.addressLines[..i + 1][..i] == a.addressLines[..i];
      text := text + a.addressLines[i] + ", ";
      i := i + 1;
    }
    assert a.addressLines[..i] == a.addressLines;
    var cityLine := if a.region != "" then a.city + ", " + a.region + ", " + a.postalCode + ", " + a.country + "\n"
                    else a.dependentLocality + ", " + a.city + ", " + a.postalCode + ", " + a.country + "\n";
    text := text + cityLine;
  }

  datatype AddressErrors = AddressErrors(
    addressLines: Option<string>,
    countryCode: Option<string>,
    city: Option<string>,
    dependentLocality: Option<string>,
    organization: Option<string>,
    phone: Option<string>,
    postalCode: Option<string>,
    recipient: Option<string>,
    region: Option<string>,
    sortingCode: Option<string>)

  /** `AddressErrors.from`: every field is its same-named key's string, or
      null when the key holds none. */
  function ErrorsFrom(extras: Bundle): (r: AddressErrors)
    ensures forall key :: key in ErrorKeys ==>
              ErrorField(r, key) == (if key in extras && extras[key].Str? then Some(extras[key].s) else None)
  {
    AddressErrors(
      GetString(extras, "addressLines"),
      GetString(extras, "countryCode"),
      GetString(extras, "city"),
      GetString(extras, "dependentLocality"),
      GetString(extras, "organization"),
      GetString(extras, "phone"),
      GetString(extras, "postalCode"),
      GetString(extras, "recipient"),
      GetString(extras, "region"),
      GetString(extras, "sortingCode"))
  }

  /** The field names of `AddressErrors`. */
  const ErrorKeys: set<string> :=
    {"addressLines", "countryCode", "city", "dependentLocality", "organization", "phone",
     "postalCode", "recipient", "region", "sortingCode"}

  /** The field of `e` named `key`. */
  function ErrorField(e: AddressErrors, key: string): Option<string>
    requires key in ErrorKeys
  {
    match key
    case "addressLines" => e.addressLines
    case "countryCode" => e.countryCode
    case "city" => e.city
    case "dependentLocality" => e.dependentLocality
    case "organization" => e.organization
    case "phone" => e.phone
    case "postalCode" => e.postalCode
    case "recipient" => e.recipient
    case "region" => e.region
    case "sortingCode" => e.sortingCode
  }

  /** The bundle of address errors the browser sends: each non-null field as
      a string under its own name, nothing for a null field. */
  function ErrorsBundle(e: AddressErrors): Bundle {
    map key | key in ErrorKeys && ErrorField(e, key).Some? :: Str(ErrorField(e, key).value)
  }

  /** Decoding the bundle of any address errors gives them back. */
  lemma ErrorsFromBundle(e: AddressErrors)
    ensures ErrorsFrom(ErrorsBundle(e)) == e
  {
  }

  /** Kotlin's `!isNullOrEmpty()`. */
  predicate NonEmpty(field: Option<string>) {
    field.Some? && field.value != ""
  }

  /** A field's line in the error text: its value and a newline, or nothing. */
  function Line(field: Option<string>): string {
    if NonEmpty(field) then field.value + "\n" else ""
  }

  /** Every line of `s` is complete: `s` is empty or ends with a newline. */
  predicate EndsLine(s: string) {
    s == "" || s[|s| - 1] == '\n'
  }

  lemma ConcatEndsLine(a: string, b: string)
    requires EndsLine(a) && EndsLine(b)
    ensures EndsLine(a + b)
  {
    if b == "" {
      assert a + b == a;
    }
  }

  /** `AddressErrors.toString` as written: each non-empty field appends its
      line, except that address lines and phone ASSIGN theirs, so a non-empty
      phone discards the address lines, country code, city, dependent
      locality and organization collected before it. */
  function ErrorsToString(e: AddressErrors): (r: string)
    ensures !NonEmpty(e.phone) ==>
              r == Line(e.addressLines) + Line(e.countryCode) + Line(e.city) + Line(e.dependentLocality)
                   + Line(e.organization) + Line(e.postalCode) + Line(e.recipient) + Line(e.region)
                   + Line(e.sortingCode)
    ensures NonEmpty(e.phone) ==>
              r == e.phone.value + "\n" + Line(e.postalCode) + Line(e.recipient) + Line(e.region)
                   + Line(e.sortingCode)
  {
    var afterAddressLines := if NonEmpty(e.addressLines) then e.addressLines.value + "\n" else "";
    var afterOrganization := afterAddressLines + Line(e.countryCode) + Line(e.city)
                             + Line(e.dependentLocality) + Line(e.organization);
    var afterPhone := if NonEmpty(e.phone) then e.phone.value + "\n" else afterOrganization;
    var text := afterPhone + Line(e.postalCode) + Line(e.recipient) + Line(e.region) + Line(e.sortingCode);
    text
  }

  /** Appending four fields' lines to complete lines keeps them complete. */
  lemma AppendLinesEndsLine(text: string, f1: Option<string>, f2: Option<string>, f3: Option<string>, f4: Option<string>)
    requires EndsLine(text)
    ensures EndsLine(text + Line(f1) + Line(f2) + Line(f3) + Line(f4))
  {
    ConcatEndsLine(text, Line(f1));
    ConcatEndsLine(text + Line(f1), Line(f2));
    ConcatEndsLine(text + Line(f1) + Line(f2), Line(f3));
    ConcatEndsLine(text + Line(f1) + Line(f2) + Line(f3), Line(f4));
  }

  /** A non-empty error text ends with a newline. */
  lemma ErrorTextEndsLine(e: AddressErrors)
    ensures EndsLine(ErrorsToString(e))
  {
    AppendLinesEndsLine(Line(e.addressLines), e.countryCode, e.city, e.dependentLocality, e.organization);
    var head := Line(e.addressLines) + Line(e.countryCode) + Line(e.city) + Line(e.dependentLocality)
                + Line(e.organization);
    var afterPhone := if NonEmpty(e.phone) then Line(e.phone) else head;
    AppendLinesEndsLine(afterPhone, e.postalCode, e.recipient, e.region, e.sortingCode);
  }

  /** Every field null or empty gives the empty text. */
  lemma NoErrorsNoText(e: AddressErrors)
    requires forall key :: key in ErrorKeys ==> !NonEmpty(ErrorField(e, key))
    ensures ErrorsToString(e) == ""
  {
    assert !NonEmpty(ErrorField(e, "phone"));
    assert !NonEmpty(ErrorField(e, "addressLines")) && !NonEmpty(ErrorField(e, "countryCode"));
    assert !NonEmpty(ErrorField(e, "city")) && !NonEmpty(ErrorField(e, "dependentLocality"));
    assert !NonEmpty(ErrorField(e, "organization")) && !NonEmpty(ErrorField(e, "postalCode"));
    assert !NonEmpty(ErrorField(e, "recipient")) && !NonEmpty(ErrorField(e, "region"));
    assert !NonEmpty(ErrorField(e, "sortingCode"));
  }
}

=== FILE: amounts.dfy ===
/** `PaymentAmount` of model/PaymentDetails.kt: a currency code and a decimal
    string, never interpreted as a number.

    JSON text is parsed by an oracle: a parser maps text to a JSON object
    (member name to its value rendered as text, which is what
    `JSONObject.getString` hands back) or to `None` when the text is
    malformed. */
module Amounts {
  import opened Wrappers
  import opened Bundles

  type JsonObject = map<string, string>
  type JsonParser = string -> Option<JsonObject>

  datatype PaymentAmount = PaymentAmount(currency: string, value: string)

  /** `PaymentAmount.parse`: malformed text, or an object lacking "currency"
      or "value", raises RuntimeException("Cannot parse JSON"). */
  function Parse(json: string, parser: JsonParser): (r: Result<PaymentAmount>)
    ensures r.Ok? <==> parser(json).Some? && "currency" in parser(json).value && "value" in parser(json).value
    ensures r.Ok? ==> r.value.currency == parser(json).value["currency"]
                      && r.value.value == parser(json).value["value"]
    ensures r.Err? ==> r.fault == RuntimeJson
  {
    match parser(json)
    case None => Err(RuntimeJson)
    case Some(obj) =>
      if "currency" in obj && "value" in obj then Ok(PaymentAmount(obj["currency"], obj["value"]))
      else Err(RuntimeJson)
  }

  /** `PaymentAmount.from`: copies the "currency" and "value" strings; a
      missing one is a `!!` on null, "currency" being read first. */
  function From(extras: Bundle): (r: Result<PaymentAmount>)
    ensures r.Ok? <==> ("currency" in extras && extras["currency"].Str? && "value" in extras && extras["value"].Str?)
    ensures r.Ok? ==> r.value == PaymentAmount(extras["currency"].s, extras["value"].s)
    ensures !("currency" in extras && extras["currency"].Str?) ==> r == Err(NullPointer("currency"))
    ensures ("currency" in extras && extras["currency"].Str?) && !("value" in extras && extras["value"].Str?) ==>
              r == Err(NullPointer("value"))
  {
    match (GetString(extras, "currency"), GetString(extras, "value"))
    case (None, _) => Err(NullPointer("currency"))
    case (Some(_), None) => Err(NullPointer("value"))
    case (Some(currency), Some(value)) => Ok(PaymentAmount(currency, value))
  }

  /** The bundle an amount travels in: its two strings under "currency" and
      "value". */
  function ToBundle(a: PaymentAmount): Bundle {
    map["currency" := Str(a.currency), "value" := Str(a.value)]
  }

  /** Decoding the bundle of any amount gives that amount back. */
  lemma FromToBundle(a: PaymentAmount)
    ensures From(ToBundle(a)) == Ok(a)
  {
  }

  /** A JSON object seen as a bundle of strings. */
  function ObjectBundle(obj: JsonObject): Bundle {
    map key | key in obj :: Str(obj[key])
  }

  /** The JSON decoder and the bundle decoder agree: on text that parses,
      `parse` succeeds exactly when `from` succeeds on the same members, with
      the same amount. */
  lemma ParseAgreesWithFrom(json: string, parser: JsonParser)
    requires parser(json).Some?
    ensures Parse(json, parser).Ok? <==> From(ObjectBundle(parser(json).value)).Ok?
    ensures Parse(json, parser).Ok? ==> Parse(json, parser).value == From(ObjectBundle(parser(json).value)).value
  {
  }
}

=== FILE: bundle_utils.dfy ===
/** The decoding helpers of model/BundleUtils.kt, for a `Bundle` and for a
    `SavedStateHandle` (modelled as the same key/value map).

    The two differ on a value of the wrong type: the `Bundle` getters treat
    it as absent, while `SavedStateHandle.get<T>` is an unchecked cast that
    fails as soon as the value is used. */
module BundleUtils {
  import opened Wrappers
  import opened Bundles
  import Amounts
  import Shipping

  /** `Bundle.getPaymentAmount`: null when there is no string at `key`.
      Only JSONException is caught, but `PaymentAmount.parse` rethrows as
      RuntimeException, so a malformed amount is a failure, never null. */
  function GetPaymentAmount(b: Bundle, key: string, parser: Amounts.JsonParser)
    : (r: Result<Option<Amounts.PaymentAmount>>)
    ensures r == Ok(None) <==> !(key in b && b[key].Str?)
    ensures key in b && b[key].Str? ==>
              match Amounts.Parse(b[key].s, parser)
              case Ok(a) => r == Ok(Some(a))
              case Err(f) => r == Err(f)
  {
    match GetString(b, key)
    case None => Ok(None)
    case Some(s) =>
      match Amounts.Parse(s, parser)
      case Ok(a) => Ok(Some(a))
      case Err(f) => Err(f)
  }

  /** `map(ShippingOption::from)`: element-wise, aborting at the first
      element that fails. */
  function MapShippingOptions(bundles: seq<Bundle>): (r: Result<seq<Shipping.ShippingOption>>)
    ensures r.Ok? <==> forall i :: 0 <= i < |bundles| ==> Shipping.From(bundles[i]).Ok?
    ensures r.Ok? ==> |r.value| == |bundles|
    ensures r.Ok? ==> forall i :: 0 <= i < |bundles| ==> Shipping.From(bundles[i]) == Ok(r.value[i])
    ensures r.Err? ==> exists i :: 0 <= i < |bundles| && Shipping.From(bundles[i]) == Err(r.fault)
  {
    if |bundles| == 0 then Ok([])
    else
      match Shipping.From(bundles[0])
      case Err(f) => Err(f)
      case Ok(first) =>
        match MapShippingOptions(bundles[1..])
        case Err(f) =>
          assert forall i :: 1 <= i < |bundles| ==> bundles[i] == bundles[1..][i - 1];
          Err(f)
        case Ok(rest) =>
          assert forall i :: 1 <= i < |bundles| ==> bundles[i] == bundles[1..][i - 1];
          Ok([first] + rest)
  }

  /** `Bundle.getShippingOptions`: empty when there is no bundle array at
      `key`, otherwise `ShippingOption.from` of each element, same length and
      order. */
  function GetShippingOptions(b: Bundle, key: string): (r: Result<seq<Shipping.ShippingOption>>)
    ensures !(key in b && b[key].BundleArray?) ==> r == Ok([])
    ensures key in b && b[key].BundleArray? ==> r == MapShippingOptions(b[key].bundles)
  {
    match GetBundleArray(b, key)
    case None => Ok([])
    case Some(bundles) => MapShippingOptions(bundles)
  }

  /** The method-data map of one nested bundle: its key set, each key mapped
      to its string, or "[]" when it holds none. */
  function MethodDataOf(nested: Bundle): (m: map<string, string>)
    ensures m.Keys == nested.Keys
    ensures forall k :: k in nested && nested[k].Str? ==> m[k] == nested[k].s
    ensures forall k :: k in nested && !nested[k].Str? ==> m[k] == "[]"
  {
    map k | k in nested :: GetStringOr(nested, k, "[]")
  }

  /** `Bundle.getMethodData`: empty when there is no bundle at `key`. */
  function GetMethodData(b: Bundle, key: string): (r: map<string, string>)
    ensures !(key in b && b[key].Nested?) ==> r == map[]
    ensures key in b && b[key].Nested? ==> r == MethodDataOf(b[key].bundle)
  {
    match GetBundle(b, key)
    case None => map[]
    case Some(nested) => MethodDataOf(nested)
  }

  /** `SavedStateHandle.getMethodData`. */
  function StateGetMethodData(state: Bundle, key: string): (r: Result<map<string, string>>)
    ensures key !in state || state[key].Null? ==> r == Ok(map[])
    ensures key in state && state[key].Nested? ==> r == Ok(GetMethodData(state, key))
    ensures r.Err? <==> key in state && !state[key].Null? && !state[key].Nested?
  {
    if key !in state || state[key].Null? then Ok(map[])
    else if state[key].Nested? then Ok(MethodDataOf(state[key].bundle))
    else Err(ClassCast(key))
  }

  /** `SavedStateHandle.getShippingOptions`. */
  function StateGetShippingOptions(state: Bundle, key: string): (r: Result<seq<Shipping.ShippingOption>>)
    ensures key !in state || state[key].Null? ==> r == Ok([])
    ensures key in state && state[key].BundleArray? ==> r == GetShippingOptions(state, key)
    ensures key in state && !state[key].Null? && !state[key].BundleArray? ==> r == Err(ClassCast(key))
  {
    if key !in state || state[key].Null? then Ok([])
    else if state[key].BundleArray? then MapShippingOptions(state[key].bundles)
    else Err(ClassCast(key))
  }
}

=== FILE: bundles.dfy ===
/** android.os.Bundle as an immutable key/value map, and the typed getters
    the payment code reads it with.

    A getter that finds no mapping of the requested type (the key is absent,
    bound to null, or bound to a value of another type) returns null or the
    caller's default, exactly as the Android getters do. */
module Bundles {
  import opened Wrappers

  datatype Value =
    | Null                                      // an explicit `putExtra(key, null)`
    | Str(s: string)
    | Bool(b: bool)
    | StrArray(items: seq<string>)              // String[] and ArrayList<String> alike
    | Nested(bundle: map<string, Value>)
    | BundleArray(bundles: seq<map<string, Value>>)

  type Bundle = map<string, Value>

  /** An android.content.Intent as far as the payment code looks at it. */
  datatype Intent = Intent(action: Option<string>, extras: Option<Bundle>)

  /** `Bundle.getString(key)`. */
  function GetString(b: Bundle, key: string): Option<string> {
    if key in b && b[key].Str? then Some(b[key].s) else None
  }

  /** `Bundle.getString(key, default)`. */
  function GetStringOr(b: Bundle, key: string, default: string): string {
    GetString(b, key).GetOr(default)
  }

  /** `Bundle.getBoolean(key, default)`. */
  function GetBoolean(b: Bundle, key: string, default: bool): bool {
    if key in b && b[key].Bool? then b[key].b else default
  }

  /** `Bundle.getBundle(key)`. */
  function GetBundle(b: Bundle, key: string): Option<Bundle> {
    if key in b && b[key].Nested? then Some(b[key].bundle) else None
  }

  /** `Bundle.getStringArrayList(key)`. */
  function GetStringArrayList(b: Bundle, key: string): Option<seq<string>> {
    if key in b && b[key].StrArray? then Some(b[key].items) else None
  }

  /** The private `getBundleArray` helper: `getParcelableArray(key)` as a list of bundles. */
  function GetBundleArray(b: Bundle, key: string): Option<seq<Bundle>> {
    if key in b && b[key].BundleArray? then Some(b[key].bundles) else None
  }

  /** The value `putExtra(key, s)` stores for a nullable string. */
  function StringOrNull(s: Option<string>): Value {
    match s
    case Some(v) => Str(v)
    case None => Null
  }

  /** The value `putExtra(key, b)` stores for a nullable bundle. */
  function BundleOrNull(b: Option<Bundle>): Value {
    match b
    case Some(v) => Nested(v)
    case None => Null
  }
}

=== FILE: checkout_view_model.dfy ===
/** The Compose payment screen's view model, ui/PaymentViewModel.kt: how the
    screen state starts, how a browser update is merged into it, how the
    update service is obtained through the identity gate, which update
    request each user action issues, and which extras the payment result
    carries. */
module CheckoutViewModel {
  import opened Wrappers
  import opened Bundles
  import Amounts
  import Options
  import Shipping
  import Addresses
  import DetailsUpdate
  import RequestParams
  import Signing
  import UpdateRpc
  import opened UpdateGate

  datatype PaymentIntent =
    | NoIntent                               // PaymentIntent.None
    | Started(
        callingIdentity: ApplicationIdentity,
        merchantName: string,
        merchantOrigin: string,
        errorText: Option<string>,
        promotionCodeErrorText: Option<string>,
        amount: Option<Amounts.PaymentAmount>,
        paymentOptions: Options.PaymentOptions,
        shippingOptions: seq<Shipping.ShippingOption>,
        defaultShippingOptionId: Option<string>,
        paymentAddresses: seq<Addresses.PaymentAddress>)

  datatype PaymentResult =
    | NoResult                               // PaymentResult.None
    | ErrorResult(fault: Fault)
    | ResultIntent(extras: Bundle)

  /** The three fixed addresses the user picks from. */
  const PaymentAddresses: seq<Addresses.PaymentAddress> := [
    Addresses.PaymentAddress("canada_address", "Canada", ["111 Richmond st. West #12"], "CA", "Canada",
                             "Toronto", "", "Google", "+14169158200", "M5H2G4", "John Smith", "Ontario", ""),
    Addresses.PaymentAddress("us_address", "US", ["1875 Explorer St #1000"], "US", "United States",
                             "Reston", "", "Google", "+12023705600", "20190", "John Smith", "Virginia", ""),
    Addresses.PaymentAddress("uk_address", "UK", ["1-13 St Giles High St"], "UK", "United Kingdom",
                             "London", "West End", "Google", "+442070313000", "WC2H 8AG", "John Smith", "", "")
  ]

  /** `addresses.find { it.id == id }`: the first address with that id. */
  function FindAddress(addresses: seq<Addresses.PaymentAddress>, id: string): (r: Option<Addresses.PaymentAddress>)
    ensures r.None? <==> forall i :: 0 <= i < |addresses| ==> addresses[i].id != id
    ensures r.Some? ==> exists k :: 0 <= k < |addresses| && addresses[k] == r.value && r.value.id == id
                                    && forall j :: 0 <= j < k ==> addresses[j].id != id
  {
    if |addresses| == 0 then None
    else if addresses[0].id == id then Some(addresses[0])
    else
      var r := FindAddress(addresses[1..], id);
      assert forall i :: 1 <= i < |addresses| ==> addresses[i] == addresses[1..][i - 1];
      r
  }

  /** The fixed addresses have pairwise distinct ids, so an id picks at most
      one of them, and only their three ids pick any. */
  lemma AddressIdsDistinct()
    ensures forall i, j :: 0 <= i < j < |PaymentAddresses| ==> PaymentAddresses[i].id != PaymentAddresses[j].id
    ensures forall id :: FindAddress(PaymentAddresses, id).Some? <==> id in {"canada_address", "us_address", "uk_address"}
  {
    forall id
      ensures FindAddress(PaymentAddresses, id).Some? <==> id in {"canada_address", "us_address", "uk_address"}
    {
      if FindAddress(PaymentAddresses, id).Some? {
        assert id == PaymentAddresses[0].id || id == PaymentAddresses[1].id || id == PaymentAddresses[2].id;
      }
    }
  }

  /** `shippingOptions.find { it.selected }?.id`. */
  function FirstSelectedId(options: seq<Shipping.ShippingOption>): (r: Option<string>)
    ensures r.None? <==> forall i :: 0 <= i < |options| ==> !options[i].selected
    ensures r.Some? ==> exists k :: 0 <= k < |options| && options[k].selected && options[k].id == r.value
                                    && forall j :: 0 <= j < k ==> !options[j].selected
  {
    if |options| == 0 then None
    else if options[0].selected then Some(options[0].id)
    else
      var r := FirstSelectedId(options[1..]);
      assert forall i :: 1 <= i < |options| ==> options[i] == options[1..][i - 1];
      r
  }

  /** The view model's `init`: the payment starts only for a known calling
      package and a saved state holding "paymentOptions". The caller's
      identity is its package name with its signatures (`signaturesOf` is
      `getApplicationSignatures`), and `decode` is the `PaymentParams.from`
      this screen was written against. */
  function Init(
    callingPackage: Option<string>, state: Bundle,
    decode: Bundle -> Result<RequestParams.CheckoutParams>, signaturesOf: string -> seq<Signing.Signature>)
    : (r: Result<PaymentIntent>)
    ensures !(callingPackage.Some? && "paymentOptions" in state) ==> r == Ok(NoIntent)
    ensures callingPackage.Some? && "paymentOptions" in state ==>
              (r.Ok? <==> decode(state).Ok?) && (r.Ok? ==> r.value.Started?)
    ensures r.Ok? && r.value.Started? ==>
              var p := decode(state).value;
              var name := callingPackage.value;
              && r.value.callingIdentity == ApplicationIdentity(name, signaturesOf(name))
              && r.value.merchantName == p.merchantName
              && r.value.merchantOrigin == p.merchantOrigin
              && r.value.amount == p.total
              && r.value.paymentOptions == p.paymentOptions
              && r.value.shippingOptions == p.shippingOptions
              && r.value.errorText.None? && r.value.promotionCodeErrorText.None?
              && r.value.defaultShippingOptionId == FirstSelectedId(p.shippingOptions)
              && r.value.paymentAddresses == PaymentAddresses
  {
    if callingPackage.Some? && "paymentOptions" in state then
      var p :- decode(state);
      var name := callingPackage.value;
      Ok(Started(
        ApplicationIdentity(name, signaturesOf(name)),
        p.merchantName, p.merchantOrigin, None, None, p.total, p.paymentOptions, p.shippingOptions,
        FirstSelectedId(p.shippingOptions), PaymentAddresses))
    else
      Ok(NoIntent)
  }

  /** The error text an update leaves on screen: its error, followed by a
      newline and the address errors when there are any; null when the
      update has no error, whatever its address errors. */
  function UpdatedErrorText(u: DetailsUpdate.PaymentDetailsUpdate): Option<string> {
    match u.error
    case None => None
    case Some(e) =>
      match u.addressErrors
      case None => Some(e)
      case Some(ae) => Some(e + "\n" + Addresses.ErrorsToString(ae))
  }

  /** The callback's `updateWith`: outside a started payment nothing happens;
      inside one, only the shipping options, amount, promotion-code error and
      error text are replaced. The `!!` on the shipping options cannot fire:
      the only failure is the decoding's own. */
  function UpdateWith(intent: PaymentIntent, newPaymentDetails: Bundle): (r: Result<PaymentIntent>)
    ensures !intent.Started? ==> r == Ok(intent)
    ensures intent.Started? ==> (r.Ok? <==> DetailsUpdate.From(newPaymentDetails).Ok?)
    ensures r.Err? ==> r.fault == DetailsUpdate.From(newPaymentDetails).fault
    ensures intent.Started? && r.Ok? ==>
              var u := DetailsUpdate.From(newPaymentDetails).value;
              var s := r.value;
              && s.Started?
              && s.callingIdentity == intent.callingIdentity
              && s.merchantName == intent.merchantName && s.merchantOrigin == intent.merchantOrigin
              && s.paymentOptions == intent.paymentOptions
              && s.defaultShippingOptionId == intent.defaultShippingOptionId
              && s.paymentAddresses == intent.paymentAddresses
              && Some(s.shippingOptions) == u.shippingOptions
              && s.amount == u.total
              && s.promotionCodeErrorText == u.paymentMethodErrors
              && (u.error.None? ==> s.errorText.None?)
              && (u.error.Some? && u.addressErrors.None? ==> s.errorText == u.error)
              && (u.error.Some? && u.addressErrors.Some? ==>
                    s.errorText == Some(u.error.value + "\n" + Addresses.ErrorsToString(u.addressErrors.value)))
  {
    if !intent.Started? then Ok(intent)
    else
      var u :- DetailsUpdate.From(newPaymentDetails);
      match u.shippingOptions
      case None => Err(NullPointer("shippingOptions"))
      case Some(options) =>
        Ok(intent.(shippingOptions := options, amount := u.total,
                   promotionCodeErrorText := u.paymentMethodErrors, errorText := UpdatedErrorText(u)))
  }

  /** What the screen holds after the update service connects. */
  datatype Connection = Connection(updateService: Option<UpdateService>, result: PaymentResult)

  /** The service connection's `onServiceConnected`: a started payment asks
      the gate for the service with the identity that started it; a refusal
      becomes an error result and the previously held service (none, on
      first connection) stays. */
  function OnServiceConnected(intent: PaymentIntent, gate: Gate, held: Option<UpdateService>, result: PaymentResult)
    : (c: Connection)
    ensures !intent.Started? ==> c == Connection(held, result)
    ensures intent.Started? && gate.remoteCallerIdentity == Some(intent.callingIdentity) ==>
              c == Connection(gate.updateService, result)
    ensures intent.Started? && gate.remoteCallerIdentity != Some(intent.callingIdentity) ==>
              c == Connection(held, ErrorResult(IllegalState))
  {
    if !intent.Started? then Connection(held, result)
    else
      match GetUpdateService(gate, intent.callingIdentity)
      case Ok(service) => Connection(service, result)
      case Err(f) => Connection(held, ErrorResult(f))
  }

  /** Over any history of the binder: the screen gets the service exactly
      when the latest `setPaymentDetailsUpdateService` came from the app that
      started the payment, and otherwise reports an error and holds none. */
  lemma ConnectAfterHistory(intent: PaymentIntent, events: seq<Event>)
    requires intent.Started?
    ensures var c := OnServiceConnected(intent, Run(events), None, NoResult);
            match LastSet(events)
            case None => c == Connection(None, ErrorResult(IllegalState))
            case Some(k) =>
              var e := events[k];
              if e.callerName.Some?
                 && intent.callingIdentity == ApplicationIdentity(e.callerName.value, e.signaturesOf(e.callerName.value))
              then c == Connection(Some(e.service), NoResult)
              else c == Connection(None, ErrorResult(IllegalState))
  {
    LatestSetterWins(events, intent.callingIdentity);
  }

  /** `applyPromotionCode`: a payment-method change whose details carry the
      code, issued only while an update service is held. */
  function ApplyPromotionCode(held: Option<UpdateService>, promotionCode: string, methodName: string)
    : (r: Option<UpdateRpc.UpdateRequest>)
    ensures r.Some? <==> held.Some?
    ensures r.Some? ==> r.value == UpdateRpc.PromotionCodeChange(methodName, promotionCode)
  {
    if held.Some? then Some(UpdateRpc.PromotionCodeChange(methodName, promotionCode)) else None
  }

  /** `updateShippingOption`. */
  function UpdateShippingOption(held: Option<UpdateService>, shippingOptionId: string)
    : (r: Option<UpdateRpc.UpdateRequest>)
    ensures r.Some? <==> held.Some?
    ensures r.Some? ==> r.value == UpdateRpc.ChangeShippingOption(shippingOptionId)
  {
    if held.Some? then Some(UpdateRpc.ChangeShippingOption(shippingOptionId)) else None
  }

  /** `updateShippingAddress`: sends the bundle of the fixed address with
      that id; with a service held, an id matching none of them is a `!!` on
      null (without one, the safe call skips the lookup). */
  function UpdateShippingAddress(held: Option<UpdateService>, shippingAddressId: string)
    : (r: Result<Option<UpdateRpc.UpdateRequest>>)
    ensures held.None? ==> r == Ok(None)
    ensures held.Some? ==> (r.Ok? <==> shippingAddressId in {"canada_address", "us_address", "uk_address"})
    ensures held.Some? && r.Ok? ==> r.value.Some?
    ensures r.Ok? && r.value.Some? ==>
              exists i :: 0 <= i < |PaymentAddresses| && PaymentAddresses[i].id == shippingAddressId
                          && r.value.value == UpdateRpc.ChangeShippingAddress(Addresses.AsBundle(PaymentAddresses[i]))
  {
    AddressIdsDistinct();
    if held.None? then Ok(None)
    else
      match FindAddress(PaymentAddresses, shippingAddressId)
      case None => Err(NullPointer("shippingAddress"))
      case Some(a) => Ok(Some(UpdateRpc.ChangeShippingAddress(Addresses.AsBundle(a))))
  }

  datatype ContactInfo = ContactInfo(name: Option<string>, phoneNumber: Option<string>, emailAddress: Option<string>)

  /** What the user filled in: the ids of the chosen option and address. */
  datatype PaymentFormInfo = PaymentFormInfo(
    promotionCode: Option<string>,
    contactInfo: ContactInfo,
    shippingOption: Option<string>,
    shippingAddress: Option<string>)

  /** The bundle of the chosen address, or null when none of `addresses` has that id. */
  function ChosenAddress(addresses: seq<Addresses.PaymentAddress>, id: Option<string>): Option<Bundle> {
    match id
    case None => None
    case Some(i) =>
      match FindAddress(addresses, i)
      case None => None
      case Some(a) => Some(Addresses.AsBundle(a))
  }

  /** `pay`: outside a started payment the cast throws. Otherwise the result
      always carries the method name, the details and the promotion code;
      the requested fields are the subject of the lemmas that follow. */
  function Pay(intent: PaymentIntent, info: PaymentFormInfo, methodName: string): (r: Result<Bundle>)
    ensures !intent.Started? ==> r == Err(ClassCast("paymentIntent"))
    ensures intent.Started? ==> r.Ok?
    ensures r.Ok? ==>
              && "methodName" in r.value && r.value["methodName"] == Str(methodName)
              && "details" in r.value && r.value["details"] == Str(UpdateRpc.PaymentDetailsJson)
              && "promoCode" in r.value && r.value["promoCode"] == StringOrNull(info.promotionCode)
  {
    if !intent.Started? then Err(ClassCast("paymentIntent"))
    else
      var o := intent.paymentOptions;
      var payer := Options.PayerExtras(o, StringOrNull(info.contactInfo.name),
                                       StringOrNull(info.contactInfo.phoneNumber),
                                       StringOrNull(info.contactInfo.emailAddress));
      var shipping := Options.ShippingExtras(o, BundleOrNull(ChosenAddress(intent.paymentAddresses, info.shippingAddress)),
                                             StringOrNull(info.shippingOption));
      Ok(map["methodName" := Str(methodName), "details" := Str(UpdateRpc.PaymentDetailsJson),
             "promoCode" := StringOrNull(info.promotionCode)] + payer + shipping)
  }

  /** Each payer field is in the result exactly when the merchant asked for
      it, holding the contact detail the user gave (or null). */
  lemma PayPayerFields(intent: PaymentIntent, info: PaymentFormInfo, methodName: string)
    requires Pay(intent, info, methodName).Ok?
    ensures var x := Pay(intent, info, methodName).value;
            var o := intent.paymentOptions;
            && ("payerName" in x <==> o.requestPayerName)
            && ("payerPhone" in x <==> o.requestPayerPhone)
            && ("payerEmail" in x <==> o.requestPayerEmail)
            && (o.requestPayerName ==> x["payerName"] == StringOrNull(info.contactInfo.name))
            && (o.requestPayerPhone ==> x["payerPhone"] == StringOrNull(info.contactInfo.phoneNumber))
            && (o.requestPayerEmail ==> x["payerEmail"] == StringOrNull(info.contactInfo.emailAddress))
  {
    var o := intent.paymentOptions;
    var payer := Options.PayerExtras(o, StringOrNull(info.contactInfo.name),
                                     StringOrNull(info.contactInfo.phoneNumber),
                                     StringOrNull(info.contactInfo.emailAddress));
    var shipping := Options.ShippingExtras(o, BundleOrNull(ChosenAddress(intent.paymentAddresses, info.shippingAddress)),
                                           StringOrNull(info.shippingOption));
    var base := map["methodName" := Str(methodName), "details" := Str(UpdateRpc.PaymentDetailsJson),
                    "promoCode" := StringOrNull(info.promotionCode)];
    assert Pay(intent, info, methodName).value == base + payer + shipping;
    assert "payerName" !in shipping && "payerPhone" !in shipping && "payerEmail" !in shipping;
  }

  /** The address and the option are in the result exactly when shipping
      was requested: the bundle of the fixed address with the chosen id (or
      null) and the chosen option id (or null). */
  lemma PayShippingFields(intent: PaymentIntent, info: PaymentFormInfo, methodName: string)
    requires Pay(intent, info, methodName).Ok?
    ensures var x := Pay(intent, info, methodName).value;
            var o := intent.paymentOptions;
            && ("shippingAddress" in x <==> o.requestShipping)
            && ("shippingOptionId" in x <==> o.requestShipping)
            && (o.requestShipping ==>
                  && x["shippingAddress"] == BundleOrNull(ChosenAddress(intent.paymentAddresses, info.shippingAddress))
                  && x["shippingOptionId"] == StringOrNull(info.shippingOption))
  {
  }

  /** The result carries no key besides these eight. */
  lemma PayKeys(intent: PaymentIntent, info: PaymentFormInfo, methodName: string)
    requires Pay(intent, info, methodName).Ok?
    ensures Pay(intent, info, methodName).value.Keys
              <= {"methodName", "details", "promoCode", "payerName", "payerPhone", "payerEmail",
                  "shippingAddress", "shippingOptionId"}
  {
  }
}

=== FILE: details_update.dfy ===
/** `PaymentDetailsUpdate` of model/PaymentDetailsUpdate.kt: what the browser
    sends back after a shipping or promotion change. The browser's key for
    the payment-method errors is "stringifiedPaymentMethodErrors"; the field
    is `paymentMethodErrors`. */
module DetailsUpdate {
  import opened Wrappers
  import opened Bundles
  import Amounts
  import Shipping
  import Addresses
  import BundleUtils

  datatype PaymentDetailsUpdate = PaymentDetailsUpdate(
    total: Option<Amounts.PaymentAmount>,
    shippingOptions: Option<seq<Shipping.ShippingOption>>,  // nullable in the declaration
    error: Option<string>,
    paymentMethodErrors: Option<string>,
    addressErrors: Option<Addresses.AddressErrors>)

  /** `PaymentDetailsUpdate.from`: the total is decoded only when a "total"
      bundle is there, and its failure propagates; the shipping options are
      never null (empty when absent); error and payment-method errors are
      the strings or null; address errors are decoded only when an
      "addressErrors" bundle is there. */
  function From(extras: Bundle): (r: Result<PaymentDetailsUpdate>)
    ensures r.Ok? <==>
              && (("total" in extras && extras["total"].Nested?) ==> Amounts.From(extras["total"].bundle).Ok?)
              && BundleUtils.GetShippingOptions(extras, "shippingOptions").Ok?
    ensures r.Ok? ==>
              && (r.value.total.None? <==> !("total" in extras && extras["total"].Nested?))
              && (r.value.total.Some? ==> Amounts.From(extras["total"].bundle) == Ok(r.value.total.value))
    ensures r.Ok? ==> r.value.shippingOptions == Some(BundleUtils.GetShippingOptions(extras, "shippingOptions").value)
    ensures r.Ok? && !("shippingOptions" in extras && extras["shippingOptions"].BundleArray?) ==>
              r.value.shippingOptions == Some([])
    ensures r.Ok? ==> r.value.error == (if "error" in extras && extras["error"].Str? then Some(extras["error"].s) else None)
    ensures r.Ok? ==> (r.value.paymentMethodErrors ==
                         if "stringifiedPaymentMethodErrors" in extras && extras["stringifiedPaymentMethodErrors"].Str?
                         then Some(extras["stringifiedPaymentMethodErrors"].s) else None)
    ensures r.Ok? ==>
              && (r.value.addressErrors.None? <==> !("addressErrors" in extras && extras["addressErrors"].Nested?))
              && (r.value.addressErrors.Some? ==>
                    r.value.addressErrors.value == Addresses.ErrorsFrom(extras["addressErrors"].bundle))
  {
    var total :- match GetBundle(extras, "total")
                 case None => Ok(None)
                 case Some(t) => (match Amounts.From(t) case Ok(a) => Ok(Some(a)) case Err(f) => Err(f));
    var shippingOptions :- BundleUtils.GetShippingOptions(extras, "shippingOptions");
    Ok(PaymentDetailsUpdate(
      total,
      Some(shippingOptions),
      GetString(extras, "error"),
      GetString(extras, "stringifiedPaymentMethodErrors"),
      match GetBundle(extras, "addressErrors")
      case None => None
      case Some(ae) => Some(Addresses.ErrorsFrom(ae))))
  }
}

=== FILE: fingerprints.dfy ===
/** `parseFingerprint` of PackageManagerUtils.kt: a SHA-256 fingerprint
    written as colon-separated hex groups ("F0:FD:6C:...") becomes a byte
    array, one byte per group.

    Kotlin's `split(":")`, `String.toInt(16)` and `Int.toByte()` are written
    out here, so that the edge cases (empty groups, signs, overflow,
    truncation to eight bits) are the ones the platform has. */
module Fingerprints {
  import opened Wrappers

  /** A Kotlin `Byte`: signed, -128..127. */
  type Byte = b: int | -128 <= b < 128

  const IntMax: int := 0x7fff_ffff
  /** The magnitude of `Int.MIN_VALUE`. */
  const IntMinMagnitude: int := 0x8000_0000

  /** `Int.toByte()`: keeps the low eight bits and reads them as a signed byte. */
  function ToByte(v: int): (b: Byte)
    ensures (v - b) % 256 == 0
  {
    (v + 128) % 256 - 128
  }

  /** The number of occurrences of `c` in `s`. */
  function Count(s: string, c: char): nat {
    if |s| == 0 then 0 else (if s[0] == c then 1 else 0) + Count(s[1..], c)
  }

  /** `parts.joinToString(sep)`. */
  function Join(parts: seq<string>, sep: char): string {
    if |parts| == 0 then ""
    else if |parts| == 1 then parts[0]
    else parts[0] + [sep] + Join(parts[1..], sep)
  }

  /** Kotlin's `s.split(sep)`: every separator closes one part, so the empty
      string splits into one empty part and a trailing separator leaves an
      empty last part. */
  function Split(s: string, sep: char): (parts: seq<string>)
    ensures |parts| == Count(s, sep) + 1
    ensures forall i :: 0 <= i < |parts| ==> sep !in parts[i]
  {
    if |s| == 0 then [""]
    else
      var rest := Split(s[1..], sep);
      if s[0] == sep then [""] + rest
      else [[s[0]] + rest[0]] + rest[1..]
  }

  /** Splitting loses nothing: joining the parts back gives the input. */
  lemma {:induction false} JoinSplit(s: string, sep: char)
    ensures Join(Split(s, sep), sep) == s
    decreases |s|
  {
    if |s| > 0 {
      var rest := Split(s[1..], sep);
      JoinSplit(s[1..], sep);
      if s[0] == sep {
        assert ([""] + rest)[1..] == rest;
      } else {
        var parts := [[s[0]] + rest[0]] + rest[1..];
        assert parts[1..] == rest[1..];
        if |rest| > 1 {
          assert Join(rest, sep) == rest[0] + [sep] + Join(rest[1..], sep);
        }
      }
    }
  }

  /** Splitting `x + tail` where `x` holds no separator glues `x` onto the
      first part of `tail`. */
  lemma {:induction false} SplitPrefix(x: string, tail: string, sep: char)
    requires sep !in x
    ensures Split(x + tail, sep) == [x + Split(tail, sep)[0]] + Split(tail, sep)[1..]
    decreases |x|
  {
    if |x| > 0 {
      assert (x + tail)[1..] == x[1..] + tail;
      SplitPrefix(x[1..], tail, sep);
      assert [x[0]] + (x[1..] + Split(tail, sep)[0]) == x + Split(tail, sep)[0];
    } else {
      var parts := Split(tail, sep);
      assert x + tail == tail;
      assert x + parts[0] == parts[0];
      assert parts == [parts[0]] + parts[1..];
    }
  }

  /** Splitting inverts joining, for a non-empty list of separator-free parts. */
  lemma {:induction false} SplitJoin(parts: seq<string>, sep: char)
    requires |parts| > 0
    requires forall i :: 0 <= i < |parts| ==> sep !in parts[i]
    ensures Split(Join(parts, sep), sep) == parts
    decreases |parts|
  {
    if |parts| == 1 {
      SplitPrefix(parts[0], "", sep);
      assert parts[0] + "" == parts[0];
    } else {
      var tail := Join(parts[1..], sep);
      SplitJoin(parts[1..], sep);
      SplitPrefix(parts[0], [sep] + tail, sep);
      assert parts[0] + [sep] + tail == parts[0] + ([sep] + tail);
      assert ([sep] + tail)[1..] == tail;
      assert Split([sep] + tail, sep) == [""] + parts[1..];
      assert parts[0] + "" == parts[0];
    }
  }

  /** `Character.digit(c, 16)` for ASCII characters. */
  function HexDigit(c: char): Option<nat> {
    if '0' <= c <= '9' then Some(c as nat - '0' as nat)
    else if 'a' <= c <= 'f' then Some(c as nat - 'a' as nat + 10)
    else if 'A' <= c <= 'F' then Some(c as nat - 'A' as nat + 10)
    else None
  }

  /** The value of a run of hex digits, most significant first; `None` when
      some character is not a hex digit. */
  function HexValue(s: string): (r: Option<nat>)
    ensures r.Some? <==> forall i :: 0 <= i < |s| ==> HexDigit(s[i]).Some?
    decreases |s|
  {
    if |s| == 0 then Some(0)
    else
      assert forall i :: 0 <= i < |s| - 1 ==> s[..|s| - 1][i] == s[i];
      match (HexValue(s[..|s| - 1]), HexDigit(s[|s| - 1]))
      case (Some(high), Some(low)) => Some(high * 16 + low)
      case _ => None
  }

  /** Kotlin's `String.toInt(16)`; `None` stands for the NumberFormatException
      it throws. An optional leading '+' or '-' is accepted, at least one
      digit must follow, and the value must fit in a 32-bit `Int`. */
  function ParseHexInt(s: string): (r: Option<int>)
    ensures r.Some? ==> |s| > 0 && -IntMinMagnitude <= r.value <= IntMax
    ensures |s| == 0 ==> r.None?
    ensures r.Some? ==> (s[0] == '-' ==> r.value <= 0) && (s[0] != '-' ==> r.value >= 0)
    ensures r.Some? ==> s[0] == '+' || s[0] == '-' || HexDigit(s[0]).Some?
    ensures r.Some? ==> forall i :: 0 < i < |s| ==> HexDigit(s[i]).Some?
    ensures r.Some? && (s[0] == '+' || s[0] == '-') ==> |s| > 1
  {
    if |s| == 0 then None
    else if s[0] == '-' || s[0] == '+' then
      if |s| == 1 then None
      else
        match HexValue(s[1..])
        case None => None
        case Some(m) =>
          if s[0] == '-' then (if m <= IntMinMagnitude then Some(0 - m as int) else None)
          else (if m <= IntMax then Some(m) else None)
    else
      match HexValue(s)
      case None => None
      case Some(m) => if m <= IntMax then Some(m) else None
  }

  /** `groups.map { it.toInt(16).toByte() }`: the first group that is not a
      number aborts the whole conversion. */
  function ParseGroups(groups: seq<string>): (r: Result<seq<Byte>>)
    ensures r.Ok? <==> forall i :: 0 <= i < |groups| ==> ParseHexInt(groups[i]).Some?
    ensures r.Ok? ==> |r.value| == |groups|
    ensures r.Ok? ==> forall i :: 0 <= i < |groups| ==> r.value[i] == ToByte(ParseHexInt(groups[i]).value)
    ensures r.Err? ==> exists i :: 0 <= i < |groups| && ParseHexInt(groups[i]).None?
                                   && r.fault == NumberFormat(groups[i])
                                   && forall j :: 0 <= j < i ==> ParseHexInt(groups[j]).Some?
  {
    if |groups| == 0 then Ok([])
    else
      match ParseHexInt(groups[0])
      case None => Err(NumberFormat(groups[0]))
      case Some(v) =>
        match ParseGroups(groups[1..])
        case Err(f) =>
          assert forall i :: 1 <= i < |groups| ==> groups[i] == groups[1..][i - 1];
          Err(f)
        case Ok(bytes) =>
          assert forall i :: 1 <= i < |groups| ==> groups[i] == groups[1..][i - 1];
          Ok([ToByte(v)] + bytes)
  }

  /** `parseFingerprint`: one byte per colon-separated group, each the group's
      base-16 value truncated to eight bits; an empty or non-numeric group
      makes the whole parse fail. */
  function ParseFingerprint(fingerprint: string): (r: Result<seq<Byte>>)
    ensures r.Ok? ==> |r.value| == Count(fingerprint, ':') + 1
    ensures r.Ok? ==> forall i :: 0 <= i < |r.value| ==>
                        && ParseHexInt(Split(fingerprint, ':')[i]).Some?
                        && r.value[i] == ToByte(ParseHexInt(Split(fingerprint, ':')[i]).value)
    ensures (exists i :: 0 <= i < |Split(fingerprint, ':')| && Split(fingerprint, ':')[i] == "") ==> r.Err?
    ensures fingerprint == "" ==> r == Err(NumberFormat(""))
  {
    ParseGroups(Split(fingerprint, ':'))
  }

  /** The digit `HexDigit` reads as `k`, upper case for letters. */
  function HexChar(k: nat): char
    requires k < 16
  {
    if k < 10 then ('0' as int + k) as char else ('A' as int + k - 10) as char
  }

  /** A byte written as two upper-case hex digits of its unsigned value. */
  function RenderByte(b: Byte): string {
    var u := b % 256;
    [HexChar(u / 16), HexChar(u % 16)]
  }

  /** A byte array written the way fingerprints are published: two hex digits
      per byte, joined by colons. */
  function Render(bytes: seq<Byte>): string {
    Join(seq(|bytes|, i requires 0 <= i < |bytes| => RenderByte(bytes[i])), ':')
  }

  lemma RenderByteParses(b: Byte)
    ensures ParseHexInt(RenderByte(b)) == Some(b as int % 256)
    ensures ToByte(b % 256) == b
  {
    var u := b % 256;
    var s := RenderByte(b);
    assert HexDigit(HexChar(u / 16)) == Some(u / 16);
    assert HexDigit(HexChar(u % 16)) == Some(u % 16);
    var s1 := s[..1];
    assert s1 == [HexChar(u / 16)];
    assert HexValue(s1) == Some(u / 16) by {
      assert s1[..0] == [];
    }
    assert HexValue(s) == Some(u / 16 * 16 + u % 16);
  }

  /** Writing any non-empty byte array as a fingerprint and parsing it back
      gives the same bytes. (An empty array writes as "", which does not
      parse: `parseFingerprint` never yields an empty array.) */
  lemma {:induction false} RoundTrip(bytes: seq<Byte>)
    requires |bytes| > 0
    ensures ParseFingerprint(Render(bytes)) == Ok(bytes)
  {
    var groups := seq(|bytes|, i requires 0 <= i < |bytes| => RenderByte(bytes[i]));
    forall i | 0 <= i < |groups|
      ensures ':' !in groups[i]
      ensures ParseHexInt(groups[i]) == Some(bytes[i] as int % 256)
    {
      RenderByteParses(bytes[i]);
    }
    SplitJoin(groups, ':');
    assert Render(bytes) == Join(groups, ':');
    var r := ParseGroups(groups);
    assert ParseFingerprint(Render(bytes)) == r;
    assert r.Ok?;
    forall i | 0 <= i < |bytes|
      ensures r.value[i] == bytes[i]
    {
      RenderByteParses(bytes[i]);
    }
    assert r.value == bytes;
  }
}

=== FILE: legacy_activity.dfy ===
/** PaymentActivity.kt: the legacy payment screen. It accepts the browser's
    PAY intent, keeps the request, the error and promotion-error messages and
    the selected shipping option, starts `UpdateActivity` for each change
    the user makes, merges what comes back, and builds the payment result.
    Views, radio buttons and text fields are left out; their contents are
    parameters. */
module LegacyActivity {
  import opened Wrappers
  import opened Bundles
  import Addresses
  import Options
  import Shipping
  import DetailsUpdate
  import RequestParams
  import Signing
  import UpdateRpc
  import UpdateActivity

  const PayAction: string := "org.chromium.intent.action.PAY"
  const UpdateDetailsRequestCode: int := 0

  /** The activity's state: `mParams`, `mErrorMessage`, `mPromotionError` and
      the late-initialised `mSelectedShippingOptionId` (None until set). */
  datatype Screen = Screen(
    params: RequestParams.CheckoutParams,
    errorMessage: string,
    promotionError: string,
    selectedShippingOptionId: Option<string>)

  /** The id `createShippingOptions` leaves selected: every selected option
      overwrites the previous one, so the last selected wins, and with none
      selected the old value stays. */
  function LastSelectedId(options: seq<Shipping.ShippingOption>, current: Option<string>): (r: Option<string>)
    ensures (forall i :: 0 <= i < |options| ==> !options[i].selected) ==> r == current
    ensures (exists i :: 0 <= i < |options| && options[i].selected) ==>
              exists k :: 0 <= k < |options| && options[k].selected && r == Some(options[k].id)
                          && forall j :: k < j < |options| ==> !options[j].selected
  {
    if |options| == 0 then current
    else
      var last := options[|options| - 1];
      if last.selected then Some(last.id)
      else
        var r := LastSelectedId(options[..|options| - 1], current);
        assert forall i :: 0 <= i < |options| - 1 ==> options[i] == options[..|options| - 1][i];
        r
  }

  /** `createShippingOptions`: besides redrawing the options it clears the
      error message and selects the last option flagged selected, keeping
      the old selection when none is. */
  function CreateShippingOptions(s: Screen): (r: Screen)
    ensures r.errorMessage == ""
    ensures r.params == s.params && r.promotionError == s.promotionError
    ensures r.selectedShippingOptionId == LastSelectedId(s.params.shippingOptions, s.selectedShippingOptionId)
    ensures (forall i :: 0 <= i < |s.params.shippingOptions| ==> !s.params.shippingOptions[i].selected) ==>
              r.selectedShippingOptionId == s.selectedShippingOptionId
  {
    s.(errorMessage := "",
       selectedShippingOptionId := LastSelectedId(s.params.shippingOptions, s.selectedShippingOptionId))
  }

  datatype Outcome = Cancelled | Shown(screen: Screen)

  /** `handleIntent` with the cancellation in `onCreate`: only a PAY intent
      with extras is shown. The request is decoded (`decode` is the
      `PaymentParams.from` the activity was written against), shipping options
      are laid out when shipping is requested, and the error message is
      empty exactly for an authorised caller. */
  function HandleIntent(
    intent: Option<Intent>, decode: Bundle -> Result<RequestParams.CheckoutParams>,
    app: Signing.App, callingPackage: Option<string>, notChromeMessage: string)
    : (r: Result<Outcome>)
    ensures intent.None? || intent.value.action != Some(PayAction) || intent.value.extras.None? ==> r == Ok(Cancelled)
    ensures r.Ok? && r.value.Shown? ==>
              && intent.Some? && intent.value.extras.Some?
              && decode(intent.value.extras.value).Ok?
              && Signing.AuthorizeCaller(app, callingPackage).Ok?
              && var p := decode(intent.value.extras.value).value;
                 var s := r.value.screen;
                 && s.params == p
                 && s.promotionError == ""
                 && s.selectedShippingOptionId == (if p.paymentOptions.requestShipping
                                                   then LastSelectedId(p.shippingOptions, None) else None)
                 && (s.errorMessage == "" <==> Signing.AuthorizeCaller(app, callingPackage) == Ok(true) || notChromeMessage == "")
                 && (Signing.AuthorizeCaller(app, callingPackage) == Ok(false) ==> s.errorMessage == notChromeMessage)
    ensures intent.Some? && intent.value.action == Some(PayAction) && intent.value.extras.Some? ==>
              (r.Ok? <==> decode(intent.value.extras.value).Ok? && Signing.AuthorizeCaller(app, callingPackage).Ok?)
              && (r.Ok? ==> r.value.Shown?)
  {
    if intent.None? || intent.value.action != Some(PayAction) || intent.value.extras.None? then Ok(Cancelled)
    else
      var params :- decode(intent.value.extras.value);
      var s0 := Screen(params, "", "", None);
      var s1 := if params.paymentOptions.requestShipping then CreateShippingOptions(s0) else s0;
      var authorized :- Signing.AuthorizeCaller(app, callingPackage);
      Ok(Shown(s1.(errorMessage := if authorized then "" else notChromeMessage)))
  }

  /** The change request the shipping-option listener starts, if any, and
      the screen after it. */
  datatype Change = Change(screen: Screen, request: Option<Bundle>)

  /** The shipping-option listener: checking the option already selected
      starts nothing; another option becomes the selection and is sent as
      "selectedOptionId". Before any selection the late-initialised id throws. */
  function OnShippingOptionChecked(s: Screen, tag: string): (r: Result<Change>)
    ensures r.Err? <==> s.selectedShippingOptionId.None?
    ensures r.Err? ==> r.fault == UninitializedProperty("mSelectedShippingOptionId")
    ensures r.Ok? && Some(tag) == s.selectedShippingOptionId ==> r.value == Change(s, None)
    ensures r.Ok? && Some(tag) != s.selectedShippingOptionId ==>
              r.value == Change(s.(selectedShippingOptionId := Some(tag)), Some(map["selectedOptionId" := Str(tag)]))
  {
    match s.selectedShippingOptionId
    case None => Err(UninitializedProperty("mSelectedShippingOptionId"))
    case Some(current) =>
      if tag != current then Ok(Change(s.(selectedShippingOptionId := Some(tag)), Some(map["selectedOptionId" := Str(tag)])))
      else Ok(Change(s, None))
  }

  /** The shipping-address listener: sends the checked address's bundle, or
      null when the checked button maps to no address. */
  function AddressChangeRequest(checked: Option<Addresses.PaymentAddress>): (request: Bundle)
    ensures request.Keys == {"selectedAddress"}
    ensures checked.Some? ==> request["selectedAddress"] == Nested(Addresses.AsBundle(checked.value))
    ensures checked.None? ==> request["selectedAddress"] == Null
  {
    map["selectedAddress" := BundleOrNull(if checked.Some? then Some(Addresses.AsBundle(checked.value)) else None)]
  }

  /** `applyPromotion`: the promotion error is cleared and the code is sent. */
  function ApplyPromotion(s: Screen, promotionCode: string): (r: Change)
    ensures r.screen == s.(promotionError := "")
    ensures r.request == Some(map["promotionCode" := Str(promotionCode)])
  {
    Change(s.(promotionError := ""), Some(map["promotionCode" := Str(promotionCode)]))
  }

  /** `data.extras?.getBundle("updatedPaymentParams")`. */
  function ReceivedDetails(data: Intent): Option<Bundle> {
    match data.extras
    case None => None
    case Some(b) => GetBundle(b, "updatedPaymentParams")
  }

  /** `onActivityResult` for the update request: anything but a RESULT_OK
      answer with data to request code 0 leaves the screen alone. Otherwise
      each field of the decoded update replaces the screen's when present;
      new shipping options are laid out again, which clears the error
      message before the update's own error and address errors are written. */
  function OnActivityResult(s: Screen, requestCode: int, resultCode: int, data: Option<Intent>): (r: Result<Screen>)
    ensures !(requestCode == UpdateDetailsRequestCode && resultCode == UpdateActivity.ResultOk && data.Some?) ==>
              r == Ok(s)
    ensures data.Some? && ReceivedDetails(data.value).None? ==> r == Ok(s)
    ensures requestCode == UpdateDetailsRequestCode && resultCode == UpdateActivity.ResultOk
            && data.Some? && ReceivedDetails(data.value).Some? ==>
              var u := DetailsUpdate.From(ReceivedDetails(data.value).value);
              && (r.Ok? <==> u.Ok?)
              && (r.Err? ==> r.fault == u.fault)
              && (r.Ok? ==>
                    var t := r.value;
                    var options := u.value.shippingOptions.value;
                    && t.params.merchantName == s.params.merchantName
                    && t.params.merchantOrigin == s.params.merchantOrigin
                    && t.params.paymentOptions == s.params.paymentOptions
                    && t.params.shippingOptions == options
                    && t.params.total == (if u.value.total.Some? then u.value.total else s.params.total)
                    && t.promotionError == u.value.paymentMethodErrors.GetOr(s.promotionError)
                    && t.selectedShippingOptionId == LastSelectedId(options, s.selectedShippingOptionId)
                    && t.errorMessage == (if u.value.error.Some? then u.value.error.value + "\n" else "")
                                         + (if u.value.addressErrors.Some?
                                            then Addresses.ErrorsToString(u.value.addressErrors.value) else ""))
  {
    if requestCode != UpdateDetailsRequestCode || resultCode != UpdateActivity.ResultOk || data.None? then Ok(s)
    else
      match ReceivedDetails(data.value)
      case None => Ok(s)
      case Some(details) =>
        var u :- DetailsUpdate.From(details);
        var s1 := if u.shippingOptions.Some?
                  then CreateShippingOptions(s.(params := s.params.(shippingOptions := u.shippingOptions.value)))
                  else s;
        var s2 := if u.total.Some? then s1.(params := s1.params.(total := u.total)) else s1;
        var s3 := if u.error.Some? then s2.(errorMessage := u.error.value + "\n") else s2;
        var s4 := if u.addressErrors.Some?
                  then s3.(errorMessage := s3.errorMessage + Addresses.ErrorsToString(u.addressErrors.value))
                  else s3;
        var s5 := if u.paymentMethodErrors.Some? then s4.(promotionError := u.paymentMethodErrors.value) else s4;
        Ok(s5)
  }

  /** Any update the browser sends, even one carrying no error at all,
      erases the screen's error message, the caller-not-Chrome message
      included: laying out the new shipping options clears it. */
  lemma UpdateClearsCallerError(s: Screen, details: Bundle)
    requires DetailsUpdate.From(details).Ok?
    requires !("error" in details && details["error"].Str?)
    requires !("addressErrors" in details && details["addressErrors"].Nested?)
    ensures var data := Intent(None, Some(map["updatedPaymentParams" := Nested(details)]));
            OnActivityResult(s, UpdateDetailsRequestCode, UpdateActivity.ResultOk, Some(data)).Ok?
            && OnActivityResult(s, UpdateDetailsRequestCode, UpdateActivity.ResultOk, Some(data)).value.errorMessage == ""
  {
  }

  /** What the user typed into the payer fields, and the checked address. */
  datatype PayerForm = PayerForm(
    payerName: string, payerPhone: string, payerEmail: string, checkedAddress: Option<Addresses.PaymentAddress>)

  /** The checked address's bundle, or null when the checked button maps to
      no address. */
  function CheckedAddress(form: PayerForm): Value {
    BundleOrNull(if form.checkedAddress.Some? then Some(Addresses.AsBundle(form.checkedAddress.value)) else None)
  }

  /** `pay` with `populateRequestedPaymentOptions`: the result always names
      the Sample Pay web app and carries the fixed details; with shipping
      requested, reading the option before any selection throws. The
      requested fields are the subject of the lemmas that follow. */
  function Pay(s: Screen, form: PayerForm): (r: Result<Bundle>)
    ensures r.Err? <==> s.params.paymentOptions.requestShipping && s.selectedShippingOptionId.None?
    ensures r.Err? ==> r.fault == UninitializedProperty("mSelectedShippingOptionId")
    ensures r.Ok? ==>
              && "methodName" in r.value && r.value["methodName"] == Str(UpdateRpc.SamplePayWebApp)
              && "details" in r.value && r.value["details"] == Str(UpdateRpc.PaymentDetailsJson)
  {
    var o := s.params.paymentOptions;
    var extras := map["methodName" := Str(UpdateRpc.SamplePayWebApp), "details" := Str(UpdateRpc.PaymentDetailsJson)]
                  + Options.PayerExtras(o, Str(form.payerName), Str(form.payerPhone), Str(form.payerEmail));
    if !o.requestShipping then Ok(extras)
    else
      match s.selectedShippingOptionId
      case None => Err(UninitializedProperty("mSelectedShippingOptionId"))
      case Some(id) => Ok(extras + map["shippingAddress" := CheckedAddress(form), "shippingOptionId" := Str(id)])
  }

  /** Each payer field is in the result exactly when it was requested,
      holding what the user typed. */
  lemma PayPayerFields(s: Screen, form: PayerForm)
    requires Pay(s, form).Ok?
    ensures var x := Pay(s, form).value;
            var o := s.params.paymentOptions;
            && ("payerName" in x <==> o.requestPayerName)
            && ("payerPhone" in x <==> o.requestPayerPhone)
            && ("payerEmail" in x <==> o.requestPayerEmail)
            && (o.requestPayerName ==> x["payerName"] == Str(form.payerName))
            && (o.requestPayerPhone ==> x["payerPhone"] == Str(form.payerPhone))
            && (o.requestPayerEmail ==> x["payerEmail"] == Str(form.payerEmail))
  {
  }

  /** The address and the option are in the result exactly when shipping
      was requested: the checked address's bundle (or null) and the
      selected option. */
  lemma PayShippingFields(s: Screen, form: PayerForm)
    requires Pay(s, form).Ok?
    ensures var x := Pay(s, form).value;
            var o := s.params.paymentOptions;
            && ("shippingAddress" in x <==> o.requestShipping)
            && ("shippingOptionId" in x <==> o.requestShipping)
            && (o.requestShipping ==>
                  && x["shippingAddress"] == CheckedAddress(form)
                  && x["shippingOptionId"] == Str(s.selectedShippingOptionId.value))
  {
  }

  /** The result carries no key besides these seven. */
  lemma PayKeys(s: Screen, form: PayerForm)
    requires Pay(s, form).Ok?
    ensures Pay(s, form).value.Keys <= {"methodName", "details", "payerName", "payerPhone", "payerEmail",
                                        "shippingAddress", "shippingOptionId"}
  {
  }

  /** The legacy screen never names the browser to bind to, so the update
      activity fails on a shipping-option change before binding. */
  lemma OptionChangeLacksBrowserPackage(s: Screen, tag: string, bindSucceeds: bool)
    ensures var c := OnShippingOptionChecked(s, tag);
            c.Ok? && c.value.request.Some? ==>
              UpdateActivity.OnCreate(c.value.request, bindSucceeds) == Err(NullPointer("callingBrowserPackage"))
  {
  }

  /** Likewise for an address change. */
  lemma AddressChangeLacksBrowserPackage(checked: Option<Addresses.PaymentAddress>, bindSucceeds: bool)
    ensures UpdateActivity.OnCreate(Some(AddressChangeRequest(checked)), bindSucceeds)
              == Err(NullPointer("callingBrowserPackage"))
  {
  }

  /** Likewise for a promotion code. */
  lemma PromotionLacksBrowserPackage(s: Screen, promotionCode: string, bindSucceeds: bool)
    ensures UpdateActivity.OnCreate(ApplyPromotion(s, promotionCode).request, bindSucceeds)
              == Err(NullPointer("callingBrowserPackage"))
  {
  }

  /** With the browser package added, a shipping-option change would
      reach `changeShippingOption` with the checked option. */
  lemma OptionChangeDispatch(s: Screen, tag: string, browser: string, bindSucceeds: bool)
    ensures var c := OnShippingOptionChecked(s, tag);
            c.Ok? && c.value.request.Some? ==>
              var a := UpdateActivity.OnCreate(Some(c.value.request.value["callingBrowserPackage" := Str(browser)]), bindSucceeds);
              a.Ok? && UpdateActivity.Dispatch(a.value) == UpdateRpc.ChangeShippingOption(tag)
  {
  }

  /** With the browser package added, an address change would reach
      `changeShippingAddress` with the address's bundle (the empty bundle
      for an unmapped button). */
  lemma AddressChangeDispatch(checked: Option<Addresses.PaymentAddress>, browser: string, bindSucceeds: bool)
    ensures var a := UpdateActivity.OnCreate(Some(AddressChangeRequest(checked)["callingBrowserPackage" := Str(browser)]), bindSucceeds);
            a.Ok? && UpdateActivity.Dispatch(a.value)
                       == UpdateRpc.ChangeShippingAddress(if checked.Some? then Addresses.AsBundle(checked.value) else map[])
  {
  }

  /** With the browser package added, a promotion would reach
      `changePaymentMethod` with the code. */
  lemma PromotionDispatch(s: Screen, promotionCode: string, browser: string, bindSucceeds: bool)
    ensures var a := UpdateActivity.OnCreate(Some(ApplyPromotion(s, promotionCode).request.value["callingBrowserPackage" := Str(browser)]), bindSucceeds);
            a.Ok? && UpdateActivity.Dispatch(a.value) == UpdateRpc.PromotionCodeChange(UpdateRpc.SamplePayWebApp, promotionCode)
  {
  }

  /** The update activity's answer, handed back to this screen: the details
      the browser sent are exactly what gets decoded, and "not updated"
      leaves the screen as it was. */
  lemma AnswerReachesScreen(s: Screen, a: UpdateActivity.Activity, newPaymentDetails: Bundle)
    ensures var f := UpdateActivity.OnUpdateWith(a, newPaymentDetails);
            var r := OnActivityResult(s, UpdateDetailsRequestCode, f.resultCode, Some(Intent(None, f.resultExtras)));
            r.Ok? <==> DetailsUpdate.From(newPaymentDetails).Ok?
    ensures a.updatedPaymentDetails.None? ==>
              var f := UpdateActivity.OnPaymentDetailsNotUpdated(a);
              OnActivityResult(s, UpdateDetailsRequestCode, f.resultCode, Some(Intent(None, f.resultExtras))) == Ok(s)
  {
  }
}

=== FILE: legacy_update_service.dfy ===
/** SamplePaymentDetailsUpdateService.kt: the legacy update callback. It
    keeps the service the browser hands it and pushes each update into the
    legacy screen. The screen's `update…` setters are not part of this
    model, so the service's effect is the last value pushed to each. */
module LegacyUpdateService {
  import opened Wrappers
  import opened Bundles
  import Amounts
  import Shipping
  import Addresses
  import DetailsUpdate
  import UpdateGate

  /** The last value pushed through each setter; None when never pushed. */
  datatype Pushed = Pushed(
    shippingOptions: Option<seq<Shipping.ShippingOption>>,
    total: Option<Amounts.PaymentAmount>,
    error: Option<string>,
    addressErrors: Option<Addresses.AddressErrors>,
    promotionError: Option<string>)

  /** The companion object's `connectedService` and what reached the screen. */
  datatype ServiceState = ServiceState(connectedService: Option<UpdateGate.UpdateService>, pushed: Pushed)

  /** `updateWith`: shipping options, total and address errors are pushed
      only when the update has them; the error and the promotion error are
      always pushed, as "" when absent, so an update without them clears the
      screen's. */
  function UpdateWith(st: ServiceState, newPaymentDetails: Bundle): (r: Result<ServiceState>)
    ensures r.Ok? <==> DetailsUpdate.From(newPaymentDetails).Ok?
    ensures r.Err? ==> r.fault == DetailsUpdate.From(newPaymentDetails).fault
    ensures r.Ok? ==>
              var u := DetailsUpdate.From(newPaymentDetails).value;
              var p := r.value.pushed;
              && r.value.connectedService == st.connectedService
              && p.shippingOptions == (if u.shippingOptions.Some? then u.shippingOptions else st.pushed.shippingOptions)
              && p.total == (if u.total.Some? then u.total else st.pushed.total)
              && p.addressErrors == (if u.addressErrors.Some? then u.addressErrors else st.pushed.addressErrors)
              && p.error == Some(u.error.GetOr(""))
              && p.promotionError == Some(u.paymentMethodErrors.GetOr(""))
  {
    var u :- DetailsUpdate.From(newPaymentDetails);
    var p0 := st.pushed;
    var p1 := match u.shippingOptions case Some(o) => p0.(shippingOptions := Some(o)) case None => p0;
    var p2 := match u.total case Some(t) => p1.(total := Some(t)) case None => p1;
    var p3 := p2.(error := Some(match u.error case Some(e) => e case None => ""));
    var p4 := match u.addressErrors case Some(ae) => p3.(addressErrors := Some(ae)) case None => p3;
    var p5 := p4.(promotionError := Some(match u.paymentMethodErrors case Some(m) => m case None => ""));
    Ok(st.(pushed := p5))
  }

  /** Because decoding never leaves the shipping options null, every
      successful update replaces them, and one that carries none empties the
      screen's list. */
  lemma UpdateAlwaysReplacesShippingOptions(st: ServiceState, newPaymentDetails: Bundle)
    requires DetailsUpdate.From(newPaymentDetails).Ok?
    ensures UpdateWith(st, newPaymentDetails).Ok?
    ensures UpdateWith(st, newPaymentDetails).value.pushed.shippingOptions.Some?
    ensures !("shippingOptions" in newPaymentDetails && newPaymentDetails["shippingOptions"].BundleArray?) ==>
              UpdateWith(st, newPaymentDetails).value.pushed.shippingOptions == Some([])
  {
  }

  /** `setPaymentDetailsUpdateService`: the latest service handed over is
      kept, with no check of who hands it over. */
  function SetPaymentDetailsUpdateService(st: ServiceState, service: UpdateGate.UpdateService): (r: ServiceState)
    ensures r.connectedService == Some(service)
    ensures r.pushed == st.pushed
  {
    st.(connectedService := Some(service))
  }
}

=== FILE: legacy_view_model.dfy ===
/** PaymentViewModel.kt: the legacy screen's view model. `initialize`
    decodes the PAY extras and publishes the origin, merchant name, total and
    an error code; the caller check is against the stable release
    fingerprint only. */
module LegacyViewModel {
  import opened Wrappers
  import opened Bundles
  import Amounts
  import RequestParams
  import Signing

  /** The published error: 0, or the resource id of the caller-not-Chrome text. */
  datatype ErrorCode = NoError | CallerNotChrome

  /** The four live values; None until `initialize` publishes them. */
  datatype ViewState = ViewState(
    origin: Option<string>,
    merchantName: Option<string>,
    error: Option<ErrorCode>,
    total: Option<Option<Amounts.PaymentAmount>>)

  const Unpublished: ViewState := ViewState(None, None, None, None)

  /** `initialize`: every value is published; the error is 0 exactly when
      there is a calling package signed with the one certificate the release
      fingerprint names. A malformed total, a malformed fingerprint or a
      failing package lookup propagate. */
  function Initialize(
    extras: Bundle, parser: Amounts.JsonParser, pm: Signing.PackageManager,
    releaseFingerprint: string, callingPackage: Option<string>)
    : (r: Result<ViewState>)
    ensures r.Ok? <==>
              && RequestParams.From(extras, parser).Ok?
              && (callingPackage.Some? ==> Signing.CheckChannel(pm, callingPackage.value, releaseFingerprint).Ok?)
    ensures r.Ok? ==>
              var p := RequestParams.From(extras, parser).value;
              && r.value.origin == Some(p.topLevelOrigin)
              && r.value.merchantName == Some(p.merchantName)
              && r.value.total == Some(p.total)
              && r.value.error.Some?
              && (r.value.error == Some(NoError) <==>
                    callingPackage.Some? && Signing.CheckChannel(pm, callingPackage.value, releaseFingerprint) == Ok(true))
  {
    var params :- RequestParams.From(extras, parser);
    var signed :- if callingPackage.Some? then Signing.CheckChannel(pm, callingPackage.value, releaseFingerprint)
                  else Ok(false);
    Ok(ViewState(Some(params.topLevelOrigin), Some(params.merchantName),
                 Some(if signed then NoError else CallerNotChrome), Some(params.total)))
  }

  /** For stable Chrome with the stable fingerprint this check and
      `authorizeCaller` agree; for any other package it ignores the
      allow-list and only asks whether the package is signed with that one
      certificate. */
  lemma AgreesWithAuthorizeCallerOnStable(
    extras: Bundle, parser: Amounts.JsonParser, app: Signing.App, callingPackage: Option<string>)
    requires callingPackage == Some("com.android.chrome")
    ensures var r := Initialize(extras, parser, app.pm, app.fingerprints.stable, callingPackage);
            r.Ok? ==> (r.value.error == Some(NoError) <==> Signing.AuthorizeCaller(app, callingPackage) == Ok(true))
  {
    assert callingPackage == Some(Signing.ChromePackages[0]);
  }
}

=== FILE: options.dfy ===
/** `PaymentOptions` of model/PaymentOptions.kt: which payer details and
    whether shipping the merchant asked for. */
module Options {
  import opened Wrappers
  import opened Bundles

  datatype PaymentOptions = PaymentOptions(
    requestPayerName: bool,
    requestPayerPhone: bool,
    requestPayerEmail: bool,
    requestShipping: bool,
    shippingType: string)

  /** The data class's default arguments. */
  const Defaults: PaymentOptions := PaymentOptions(false, false, false, false, "shipping")

  /** True exactly when `key` is bound to the boolean true. */
  predicate FlagSet(b: Bundle, key: string) {
    key in b && b[key] == Bool(true)
  }

  /** `PaymentOptions.from`: a null bundle gives the defaults; otherwise each
      field is read from its same-named key, absent flags being false and an
      absent shipping type "shipping". */
  function From(extras: Option<Bundle>): (r: PaymentOptions)
    ensures extras.None? ==> r == Defaults
    ensures extras.Some? ==>
              && (r.requestPayerName <==> FlagSet(extras.value, "requestPayerName"))
              && (r.requestPayerPhone <==> FlagSet(extras.value, "requestPayerPhone"))
              && (r.requestPayerEmail <==> FlagSet(extras.value, "requestPayerEmail"))
              && (r.requestShipping <==> FlagSet(extras.value, "requestShipping"))
    ensures extras.Some? && "shippingType" in extras.value && extras.value["shippingType"].Str? ==>
              r.shippingType == extras.value["shippingType"].s
    ensures extras.Some? && !("shippingType" in extras.value && extras.value["shippingType"].Str?) ==>
              r.shippingType == "shipping"
  {
    match extras
    case None => Defaults
    case Some(b) =>
      PaymentOptions(
        GetBoolean(b, "requestPayerName", false),
        GetBoolean(b, "requestPayerPhone", false),
        GetBoolean(b, "requestPayerEmail", false),
        GetBoolean(b, "requestShipping", false),
        GetStringOr(b, "shippingType", "shipping"))
  }

  /** `requireContact`. */
  predicate RequireContact(o: PaymentOptions) {
    o.requestPayerName || o.requestPayerPhone || o.requestPayerEmail
  }

  /** Contact details are required exactly when the bundle asks for one of
      the three payer fields; asking for shipping alone never requires them. */
  lemma RequireContactFromBundle(extras: Bundle)
    ensures RequireContact(From(Some(extras))) <==>
              FlagSet(extras, "requestPayerName") || FlagSet(extras, "requestPayerPhone")
              || FlagSet(extras, "requestPayerEmail")
    ensures extras == map["requestShipping" := Bool(true)] ==>
              From(Some(extras)).requestShipping && !RequireContact(From(Some(extras)))
  {
  }

  /** The payer fields a payment result carries: each exactly when the
      merchant asked for it, with the value given for it. */
  function PayerExtras(o: PaymentOptions, name: Value, phone: Value, email: Value): (x: Bundle)
    ensures x.Keys <= {"payerName", "payerPhone", "payerEmail"}
    ensures "payerName" in x <==> o.requestPayerName
    ensures "payerPhone" in x <==> o.requestPayerPhone
    ensures "payerEmail" in x <==> o.requestPayerEmail
    ensures o.requestPayerName ==> x["payerName"] == name
    ensures o.requestPayerPhone ==> x["payerPhone"] == phone
    ensures o.requestPayerEmail ==> x["payerEmail"] == email
  {
    (if o.requestPayerName then map["payerName" := name] else map[])
    + (if o.requestPayerPhone then map["payerPhone" := phone] else map[])
    + (if o.requestPayerEmail then map["payerEmail" := email] else map[])
  }

  /** The shipping fields a payment result carries: both exactly when the
      merchant asked for shipping, with the values given for them. */
  function ShippingExtras(o: PaymentOptions, address: Value, option: Value): (x: Bundle)
    ensures x.Keys <= {"shippingAddress", "shippingOptionId"}
    ensures "shippingAddress" in x <==> o.requestShipping
    ensures "shippingOptionId" in x <==> o.requestShipping
    ensures o.requestShipping ==> x["shippingAddress"] == address && x["shippingOptionId"] == option
  {
    if o.requestShipping then map["shippingAddress" := address, "shippingOptionId" := option] else map[]
  }
}

=== FILE: ready_to_pay.dfy ===
/** SampleIsReadyToPayService.kt: the IS_READY_TO_PAY service. Binding
    picks one of two binders from the intent's parameters; the accepting one
    answers whether the caller is an authorised Chrome, the rejecting one
    always answers false. */
module ReadyToPay {
  import opened Wrappers
  import opened Bundles
  import RequestParams
  import Signing

  datatype Binder = Accepting | Rejecting

  /** `areParametersValid`: exactly one method name, and it is this app's. */
  function AreParametersValid(params: RequestParams.IsReadyToPayParams, methodName: string): (r: bool)
    ensures r <==> params.methodNames == [methodName]
  {
    |params.methodNames| == 1 && params.methodNames[0] == methodName
  }

  /** `onBind`: no intent or no extras gets the rejecting binder; otherwise
      the parameters decide. `methodName` is the build's configured method
      name. */
  function OnBind(intent: Option<Intent>, methodName: string): (b: Binder)
    ensures intent.None? || intent.value.extras.None? ==> b == Rejecting
    ensures intent.Some? && intent.value.extras.Some? ==>
              (b == Accepting <==> RequestParams.ReadyFrom(intent.value.extras.value).methodNames == [methodName])
  {
    if intent.None? || intent.value.extras.None? then Rejecting
    else if AreParametersValid(RequestParams.ReadyFrom(intent.value.extras.value), methodName) then Accepting
    else Rejecting
  }

  /** `isReadyToPay` on each binder; `callingPackage` is `getNameForUid` of
      the calling uid. A failure of the caller check is not a
      `RemoteException`, so it propagates. */
  function IsReadyToPay(b: Binder, app: Signing.App, callingPackage: Option<string>): (r: Result<bool>)
    ensures b == Rejecting ==> r == Ok(false)
    ensures b == Accepting ==> r == Signing.AuthorizeCaller(app, callingPackage)
  {
    match b
    case Rejecting => Ok(false)
    case Accepting => Signing.AuthorizeCaller(app, callingPackage)
  }

  /** A "ready" answer needs both: a request naming exactly this app's
      method, and a caller on the Chrome allow-list. */
  lemma ReadyNeedsMethodAndChrome(intent: Option<Intent>, methodName: string, app: Signing.App, callingPackage: Option<string>)
    requires IsReadyToPay(OnBind(intent, methodName), app, callingPackage) == Ok(true)
    ensures intent.Some? && intent.value.extras.Some?
    ensures "methodNames" in intent.value.extras.value
    ensures intent.value.extras.value["methodNames"] == StrArray([methodName])
    ensures callingPackage.Some? && callingPackage.value in Signing.ChromePackages
  {
  }
}

=== FILE: request_params.dfy ===
/** The request parameters: `PaymentParams` of model/PaymentParams.kt (the
    PAY intent) and `IsReadyToPayParams` of model/IsReadyToPayParams.kt (the
    IS_READY_TO_PAY binding). The top-level certificate chain is left out:
    its decoder is not part of this model. */
module RequestParams {
  import opened Wrappers
  import opened Bundles
  import Amounts
  import Options
  import Shipping
  import BundleUtils

  datatype PaymentParams = PaymentParams(
    methodNames: seq<string>,
    methodData: map<string, string>,
    merchantName: string,
    topLevelOrigin: string,
    paymentRequestOrigin: string,
    total: Option<Amounts.PaymentAmount>,
    modifiers: string,
    paymentRequestId: string)


  /** `PaymentParams.from`: method names default to the empty list, the
      origins, merchant name and request id to "", modifiers to "[]"; the
      total is null without a "total" string and a malformed total fails the
      whole decoding. */
  function From(extras: Bundle, parser: Amounts.JsonParser): (r: Result<PaymentParams>)
    ensures r.Ok? <==> BundleUtils.GetPaymentAmount(extras, "total", parser).Ok?
    ensures r.Ok? ==>
              && r.value.methodNames == (if "methodNames" in extras && extras["methodNames"].StrArray?
                                         then extras["methodNames"].items else [])
              && r.value.methodData == BundleUtils.GetMethodData(extras, "methodData")
              && r.value.merchantName == GetStringOr(extras, "merchantName", "")
              && r.value.topLevelOrigin == GetStringOr(extras, "topLevelOrigin", "")
              && r.value.paymentRequestOrigin == GetStringOr(extras, "paymentRequestOrigin", "")
              && r.value.modifiers == GetStringOr(extras, "modifiers", "[]")
              && r.value.paymentRequestId == GetStringOr(extras, "paymentRequestId", "")
    ensures r.Ok? && !("total" in extras && extras["total"].Str?) ==> r.value.total.None?
    ensures r.Ok? && "total" in extras && extras["total"].Str? ==>
              && Amounts.Parse(extras["total"].s, parser).Ok?
              && r.value.total == Some(Amounts.Parse(extras["total"].s, parser).value)
  {
    var total :- BundleUtils.GetPaymentAmount(extras, "total", parser);
    Ok(PaymentParams(
      GetStringArrayList(extras, "methodNames").GetOr([]),
      BundleUtils.GetMethodData(extras, "methodData"),
      GetStringOr(extras, "merchantName", ""),
      GetStringOr(extras, "topLevelOrigin", ""),
      GetStringOr(extras, "paymentRequestOrigin", ""),
      total,
      GetStringOr(extras, "modifiers", "[]"),
      GetStringOr(extras, "paymentRequestId", "")))
  }

  datatype IsReadyToPayParams = IsReadyToPayParams(
    methodNames: seq<string>,
    methodData: map<string, string>,
    topLevelOrigin: string,
    paymentRequestOrigin: string)

  /** `IsReadyToPayParams.from`: the same defaults. The certificate chain it
      also reads is not modelled, so no failure of its decoder appears here. */
  function ReadyFrom(extras: Bundle): (r: IsReadyToPayParams)
    ensures r.methodNames == (if "methodNames" in extras && extras["methodNames"].StrArray?
                              then extras["methodNames"].items else [])
    ensures r.methodData == BundleUtils.GetMethodData(extras, "methodData")
    ensures r.topLevelOrigin == GetStringOr(extras, "topLevelOrigin", "")
    ensures r.paymentRequestOrigin == GetStringOr(extras, "paymentRequestOrigin", "")
  {
    IsReadyToPayParams(
      GetStringArrayList(extras, "methodNames").GetOr([]),
      BundleUtils.GetMethodData(extras, "methodData"),
      GetStringOr(extras, "topLevelOrigin", ""),
      GetStringOr(extras, "paymentRequestOrigin", ""))
  }

  /** On the same extras the two decoders agree on every field they share. */
  lemma SharedFieldsAgree(extras: Bundle, parser: Amounts.JsonParser)
    requires From(extras, parser).Ok?
    ensures var p := From(extras, parser).value;
            var q := ReadyFrom(extras);
            p.methodNames == q.methodNames && p.methodData == q.methodData
            && p.topLevelOrigin == q.topLevelOrigin && p.paymentRequestOrigin == q.paymentRequestOrigin
  {
  }

  /** The request fields the checkout screens read. `PaymentActivity` reads
      `paymentOptions` and `shippingOptions` from its params, and the Compose
      view model destructures ten components, neither of which the
      `PaymentParams` above has: they were written against another version
      of the class, whose decoder is not part of this model. Both screens
      therefore receive this record from a decoder they are given. */
  datatype CheckoutParams = CheckoutParams(
    merchantName: string,
    merchantOrigin: string,
    total: Option<Amounts.PaymentAmount>,
    paymentOptions: Options.PaymentOptions,
    shippingOptions: seq<Shipping.ShippingOption>)
}

=== FILE: shipping.dfy ===
/** `ShippingOption` of model/ShippingOption.kt and its `from(Bundle)` factory. */
module Shipping {
  import opened Wrappers
  import opened Bundles

  datatype ShippingOption = ShippingOption(
    id: string, labelText: string, amountCurrency: string, amountValue: string, selected: bool)

  /** `ShippingOption.from`: id, label (`labelText`, `label` being reserved in Dafny) and the amount's currency and value
      default to "", selected to false; a missing "amount" bundle is a `!!`
      on null. */
  function From(extras: Bundle): (r: Result<ShippingOption>)
    ensures r.Ok? <==> "amount" in extras && extras["amount"].Nested?
    ensures r.Err? ==> r.fault == NullPointer("amount")
    ensures r.Ok? ==>
              && r.value.id == GetStringOr(extras, "id", "")
              && r.value.labelText == GetStringOr(extras, "label", "")
              && r.value.amountCurrency == GetStringOr(extras["amount"].bundle, "currency", "")
              && r.value.amountValue == GetStringOr(extras["amount"].bundle, "value", "")
              && (r.value.selected <==> "selected" in extras && extras["selected"] == Bool(true))
  {
    var id := GetStringOr(extras, "id", "");
    var labelText := GetStringOr(extras, "label", "");
    match GetBundle(extras, "amount")
    case None => Err(NullPointer("amount"))
    case Some(amount) =>
      Ok(ShippingOption(id, labelText, GetStringOr(amount, "currency", ""), GetStringOr(amount, "value", ""),
                        GetBoolean(extras, "selected", false)))
  }

  /** The bundle an option travels in: id, label, the amount as a nested
      bundle and the selected flag, as the browser sends each entry of
      "shippingOptions". */
  function ToBundle(o: ShippingOption): Bundle {
    map["id" := Str(o.id), "label" := Str(o.labelText),
        "amount" := Nested(map["currency" := Str(o.amountCurrency), "value" := Str(o.amountValue)]),
        "selected" := Bool(o.selected)]
  }

  /** Decoding the bundle of any option gives that option back. */
  lemma FromToBundle(o: ShippingOption)
    ensures From(ToBundle(o)) == Ok(o)
  {
  }
}

=== FILE: signing.dfy ===
/** Caller authentication of PackageManagerUtils.kt: `hasSigningCertificates`
    and `authorizeCaller`.

    The platform is an oracle: the SDK level, the package lookup, the SDK 28+
    `hasSigningCertificate` check and SHA-256 are fields of `PackageManager`
    with no definition here. */
module Signing {
  import opened Wrappers
  import opened Fingerprints

  /** android.content.pm.Signature; two signatures are equal when their bytes are. */
  datatype Signature = Signature(bytes: seq<Byte>)

  /** A SHA-256 digest, compared by content (`contentEquals`). */
  type Digest = seq<Byte>

  /** What `getPackageInfo(name, GET_SIGNATURES)` yields. */
  datatype PackageInfo =
    | NotInstalled                         // NameNotFoundException
    | NoSignatures                         // `signatures` is null
    | Signed(signatures: seq<Signature>)

  datatype PackageManager = PackageManager(
    sdkInt: int,
    packageInfo: string -> PackageInfo,
    hasSigningCertificate: (string, Digest) -> bool,  // SDK 28+, CERT_INPUT_SHA256
    sha256: seq<Byte> -> Digest)

  /** `certificates.any { it.contentEquals(d) }`. */
  function AnyContentEquals(certificates: seq<Digest>, d: Digest): (r: bool)
    ensures r <==> exists j :: 0 <= j < |certificates| && certificates[j] == d
  {
    if |certificates| == 0 then false
    else certificates[0] == d || AnyContentEquals(certificates[1..], d)
  }

  /** `digests.all { s -> certificates.any { it.contentEquals(s) } }`. */
  function AllFound(digests: seq<Digest>, certificates: seq<Digest>): (r: bool)
    ensures r <==> forall i :: 0 <= i < |digests| ==> digests[i] in certificates
  {
    if |digests| == 0 then true
    else AnyContentEquals(certificates, digests[0]) && AllFound(digests[1..], certificates)
  }

  /** The pre-28 matcher: as many digests as expected certificates, and every
      digest equal to some expected certificate. */
  predicate FallbackMatch(digests: seq<Digest>, certificates: seq<Digest>) {
    |digests| == |certificates| && AllFound(digests, certificates)
  }

  /** The matcher is not set equality: a package signed twice with the same
      key passes against two expected certificates one of which it lacks. */
  lemma FallbackMatchIsNotSetEquality()
    ensures FallbackMatch([[1], [1]], [[1], [2]])
    ensures [2] !in [[1], [1]]
  {
    assert [1] in [[1], [2]];
  }

  /** With one expected certificate the matcher is plain equality: exactly
      one signer, whose digest is that certificate. */
  lemma SingleCertificateIsEquality(digests: seq<Digest>, c: Digest)
    ensures FallbackMatch(digests, [c]) <==> digests == [c]
  {
    if FallbackMatch(digests, [c]) {
      assert digests[0] in [c];
    }
  }

  /** The SHA-256 digest of every signature, in order. */
  function Digests(pm: PackageManager, signatures: seq<Signature>): (ds: seq<Digest>)
    ensures |ds| == |signatures|
    ensures forall i :: 0 <= i < |signatures| ==> ds[i] == pm.sha256(signatures[i].bytes)
  {
    seq(|signatures|, i requires 0 <= i < |signatures| => pm.sha256(signatures[i].bytes))
  }

  /** `PackageManager.hasSigningCertificates`. On SDK 28+ with one expected
      certificate the platform decides; otherwise the package's signatures are
      digested and matched by `FallbackMatch`, and a missing package or a null
      signature array throws. */
  function HasSigningCertificates(pm: PackageManager, packageName: string, certificates: seq<Digest>)
    : (r: Result<bool>)
    ensures pm.sdkInt >= 28 && |certificates| == 1 ==>
              r == Ok(pm.hasSigningCertificate(packageName, certificates[0]))
    ensures (pm.sdkInt < 28 || |certificates| != 1) ==>
              (r == Ok(true) <==>
                 && pm.packageInfo(packageName).Signed?
                 && |pm.packageInfo(packageName).signatures| == |certificates|
                 && forall i :: 0 <= i < |certificates| ==>
                      pm.sha256(pm.packageInfo(packageName).signatures[i].bytes) in certificates)
    ensures (pm.sdkInt < 28 || |certificates| != 1) && pm.packageInfo(packageName).NotInstalled? ==>
              r == Err(NameNotFound(packageName))
    ensures (pm.sdkInt < 28 || |certificates| != 1) && pm.packageInfo(packageName).NoSignatures? ==>
              r == Err(NullPointer("signatures"))
    ensures (pm.sdkInt < 28 || |certificates| != 1) && pm.packageInfo(packageName).Signed? ==> r.Ok?
  {
    if pm.sdkInt >= 28 && |certificates| == 1 then
      Ok(pm.hasSigningCertificate(packageName, certificates[0]))
    else
      match pm.packageInfo(packageName)
      case NotInstalled => Err(NameNotFound(packageName))
      case NoSignatures => Err(NullPointer("signatures"))
      case Signed(signatures) => Ok(FallbackMatch(Digests(pm, signatures), certificates))
  }

  /** A package whose signer count differs from the expected certificate
      count never passes the fallback matcher (single-signer Chrome against
      two expected fingerprints, say). */
  lemma {:induction false} CountMismatchRejects(pm: PackageManager, packageName: string, certificates: seq<Digest>)
    requires pm.packageInfo(packageName).Signed?
    requires |pm.packageInfo(packageName).signatures| != |certificates|
    requires pm.sdkInt < 28 || |certificates| != 1
    ensures HasSigningCertificates(pm, packageName, certificates) == Ok(false)
  {
    var signatures := pm.packageInfo(packageName).signatures;
    assert |Digests(pm, signatures)| != |certificates|;
  }

  /** The string resources holding each channel's release fingerprint. */
  datatype ChannelFingerprints = ChannelFingerprints(
    stable: string, beta: string, dev: string, canary: string, chromium: string)

  datatype App = App(pm: PackageManager, fingerprints: ChannelFingerprints)

  /** The allow-list, in the order `authorizeCaller` tries it. */
  const ChromePackages: seq<string> :=
    ["com.android.chrome", "com.chrome.beta", "com.chrome.dev", "com.chrome.canary", "org.chromium.chrome"]

  /** The fingerprint resource paired with `ChromePackages[i]`. */
  function ChannelFingerprint(fps: ChannelFingerprints, i: nat): string
    requires i < |ChromePackages|
  {
    [fps.stable, fps.beta, fps.dev, fps.canary, fps.chromium][i]
  }

  /** `hasSigningCertificates(name, setOf(parseFingerprint(fingerprint)))`. */
  function CheckChannel(pm: PackageManager, packageName: string, fingerprint: string): Result<bool> {
    var bytes :- ParseFingerprint(fingerprint);
    HasSigningCertificates(pm, packageName, [bytes])
  }

  /** `Application.authorizeCaller`: a null name or a name off the allow-list
      is refused; a listed name is checked against its own channel's single
      fingerprint and no other. */
  function AuthorizeCaller(app: App, packageName: Option<string>): (r: Result<bool>)
    ensures packageName.None? ==> r == Ok(false)
    ensures packageName.Some? && packageName.value !in ChromePackages ==> r == Ok(false)
    ensures packageName == Some("com.android.chrome") ==> r == CheckChannel(app.pm, packageName.value, app.fingerprints.stable)
    ensures packageName == Some("com.chrome.beta") ==> r == CheckChannel(app.pm, packageName.value, app.fingerprints.beta)
    ensures packageName == Some("com.chrome.dev") ==> r == CheckChannel(app.pm, packageName.value, app.fingerprints.dev)
    ensures packageName == Some("com.chrome.canary") ==> r == CheckChannel(app.pm, packageName.value, app.fingerprints.canary)
    ensures packageName == Some("org.chromium.chrome") ==> r == CheckChannel(app.pm, packageName.value, app.fingerprints.chromium)
    ensures r == Ok(true) ==> packageName.Some? && packageName.value in ChromePackages
  {
    match packageName
    case None => Ok(false)
    case Some(name) =>
      if name == "com.android.chrome" then CheckChannel(app.pm, name, app.fingerprints.stable)
      else if name == "com.chrome.beta" then CheckChannel(app.pm, name, app.fingerprints.beta)
      else if name == "com.chrome.dev" then CheckChannel(app.pm, name, app.fingerprints.dev)
      else if name == "com.chrome.canary" then CheckChannel(app.pm, name, app.fingerprints.canary)
      else if name == "org.chromium.chrome" then CheckChannel(app.pm, name, app.fingerprints.chromium)
      else Ok(false)
  }

  /** Each allow-listed name is checked against its own channel's
      fingerprint, and against no other. */
  lemma AuthorizeCallerPairsChannels(app: App, i: nat)
    requires i < |ChromePackages|
    ensures AuthorizeCaller(app, Some(ChromePackages[i]))
              == CheckChannel(app.pm, ChromePackages[i], ChannelFingerprint(app.fingerprints, i))
  {
    if i == 0 {
    } else if i == 1 {
    } else if i == 2 {
    } else if i == 3 {
    } else {
      assert i == 4;
    }
  }
}

=== FILE: update_activity.dfy ===
/** PaymentDetailsUpdateActivity.kt: the invisible activity the legacy
    payment screen starts for each change. It reads the change from its
    intent, binds to the browser's update service, issues one request, and
    finishes with the browser's answer. Binding and the service connection
    are platform calls: whether `bindService` succeeds is a parameter. */
module UpdateActivity {
  import opened Wrappers
  import opened Bundles
  import UpdateRpc

  const ResultOk: int := -1       // Activity.RESULT_OK

  datatype Activity = Activity(
    callingBrowserPackage: string,
    promotionCode: Option<string>,
    selectedOptionId: Option<string>,
    selectedAddress: Bundle,
    updatedPaymentDetails: Option<Bundle>,
    isBound: bool)

  /** `intent.getStringExtra(key)`: null when the intent has no extras. */
  function StringExtra(extras: Option<Bundle>, key: string): Option<string> {
    match extras
    case None => None
    case Some(b) => GetString(b, key)
  }

  predicate HasAddress(extras: Option<Bundle>) {
    extras.Some? && "selectedAddress" in extras.value && extras.value["selectedAddress"].Nested?
  }

  /** `onCreate`: the browser package is a non-null property, so a missing
      one throws; a missing address becomes the empty bundle; nothing has
      been received yet, and the activity is bound iff `bindService` said so. */
  function OnCreate(extras: Option<Bundle>, bindSucceeds: bool): (r: Result<Activity>)
    ensures r.Ok? <==> StringExtra(extras, "callingBrowserPackage").Some?
    ensures r.Err? ==> r.fault == NullPointer("callingBrowserPackage")
    ensures r.Ok? ==>
              && Some(r.value.callingBrowserPackage) == StringExtra(extras, "callingBrowserPackage")
              && r.value.promotionCode == StringExtra(extras, "promotionCode")
              && r.value.selectedOptionId == StringExtra(extras, "selectedOptionId")
              && (HasAddress(extras) ==> r.value.selectedAddress == extras.value["selectedAddress"].bundle)
              && (!HasAddress(extras) ==> r.value.selectedAddress == map[])
              && r.value.updatedPaymentDetails.None?
              && r.value.isBound == bindSucceeds
  {
    match StringExtra(extras, "callingBrowserPackage")
    case None => Err(NullPointer("callingBrowserPackage"))
    case Some(browser) =>
      var address := match extras
                     case None => None
                     case Some(b) => GetBundle(b, "selectedAddress");
      Ok(Activity(browser, StringExtra(extras, "promotionCode"), StringExtra(extras, "selectedOptionId"),
                  address.GetOr(map[]), None, bindSucceeds))
  }

  /** `onServiceConnected`: a promotion code wins over a shipping option,
      which wins over the address; the address request is the fallback, sent
      even when no address was given. */
  function Dispatch(a: Activity): (r: UpdateRpc.UpdateRequest)
    ensures a.promotionCode.Some? <==> r.ChangePaymentMethod?
    ensures r.ChangePaymentMethod? ==> r == UpdateRpc.PromotionCodeChange(UpdateRpc.SamplePayWebApp, a.promotionCode.value)
    ensures r.ChangeShippingOption? <==> a.promotionCode.None? && a.selectedOptionId.Some?
    ensures r.ChangeShippingOption? ==> r.shippingOptionId == a.selectedOptionId.value
    ensures r.ChangeShippingAddress? ==> r.address == a.selectedAddress
  {
    match a.promotionCode
    case Some(code) => UpdateRpc.PromotionCodeChange(UpdateRpc.SamplePayWebApp, code)
    case None =>
      match a.selectedOptionId
      case Some(id) => UpdateRpc.ChangeShippingOption(id)
      case None => UpdateRpc.ChangeShippingAddress(a.selectedAddress)
  }

  /** How the activity finishes. `resultExtras` is null when nothing was put
      into the result intent. */
  datatype Finish = Finish(activity: Activity, unbindCalled: bool, resultCode: int, resultExtras: Option<Bundle>)

  /** `unbind`: unbinds only a bound service, and finishes with RESULT_OK,
      carrying the browser's new details exactly when some were received. */
  function Unbind(a: Activity): (f: Finish)
    ensures f.unbindCalled == a.isBound && !f.activity.isBound
    ensures f.activity == a.(isBound := false)
    ensures f.resultCode == ResultOk
    ensures f.resultExtras.Some? <==> a.updatedPaymentDetails.Some?
    ensures f.resultExtras.Some? ==> f.resultExtras.value == map["updatedPaymentParams" := Nested(a.updatedPaymentDetails.value)]
  {
    var unbound := a.(isBound := false);
    match a.updatedPaymentDetails
    case None => Finish(unbound, a.isBound, ResultOk, None)
    case Some(details) => Finish(unbound, a.isBound, ResultOk, Some(map["updatedPaymentParams" := Nested(details)]))
  }

  /** The callback's `updateWith`. */
  function OnUpdateWith(a: Activity, newPaymentDetails: Bundle): (f: Finish)
    ensures f.resultCode == ResultOk && f.resultExtras == Some(map["updatedPaymentParams" := Nested(newPaymentDetails)])
  {
    Unbind(a.(updatedPaymentDetails := Some(newPaymentDetails)))
  }

  /** The callback's `paymentDetailsNotUpdated`: on an activity that has not
      received details, the result carries no extras at all. */
  function OnPaymentDetailsNotUpdated(a: Activity): (f: Finish)
    ensures f.resultCode == ResultOk
    ensures a.updatedPaymentDetails.None? ==> f.resultExtras.None?
  {
    Unbind(a)
  }
}

=== FILE: update_gate.dfy ===
/** The identity gate of service/SamplePaymentDetailsUpdateService.kt.

    The browser calls `setPaymentDetailsUpdateService` on the `LocalBinder`,
    which records who called (package name and signatures) together with the
    update service handed over. The payment screen later asks for that
    service with the identity of the app that started the payment, and gets
    it only when the two identities are equal. */
module UpdateGate {
  import opened Wrappers
  import opened Signing

  /** `ApplicationIdentity` of ui/PaymentViewModel.kt: a data class, so equal
      exactly when the package names and the ordered signature lists are. */
  datatype ApplicationIdentity = ApplicationIdentity(packageName: string, signatures: seq<Signature>)

  /** A handle on the browser's `IPaymentDetailsUpdateService`. */
  datatype UpdateService = UpdateService(handle: nat)

  /** The binder's `remoteCallerIdentity` and the service's `updateService`. */
  datatype Gate = Gate(remoteCallerIdentity: Option<ApplicationIdentity>, updateService: Option<UpdateService>)

  /** A recorded identity always comes with a service: the two are written together. */
  predicate Valid(g: Gate) {
    g.remoteCallerIdentity.Some? ==> g.updateService.Some?
  }

  /** `getUpdateService`: the stored service for the recorded identity,
      IllegalStateException for any other. */
  function GetUpdateService(g: Gate, appIdentity: ApplicationIdentity): (r: Result<Option<UpdateService>>)
    ensures r.Ok? <==> g.remoteCallerIdentity == Some(appIdentity)
    ensures r.Ok? ==> r.value == g.updateService
    ensures r.Err? ==> r.fault == IllegalState
    ensures r.Ok? && Valid(g) ==> r.value.Some?
  {
    if g.remoteCallerIdentity == Some(appIdentity) then Ok(g.updateService) else Err(IllegalState)
  }

  /** A freshly bound service has recorded nobody, so it refuses everyone. */
  function Fresh(): (g: Gate)
    ensures Valid(g)
    ensures forall id :: GetUpdateService(g, id) == Err(IllegalState)
  {
    Gate(None, None)
  }

  /** The identity `setPaymentDetailsUpdateService` records for the calling
      uid's package name: null when the uid has no name. */
  function CallerIdentity(callerName: Option<string>, signaturesOf: string -> seq<Signature>)
    : Option<ApplicationIdentity>
  {
    match callerName
    case None => None
    case Some(name) => Some(ApplicationIdentity(name, signaturesOf(name)))
  }

  /** `setPaymentDetailsUpdateService`: overwrites both the recorded identity
      and the service, so the latest caller wins and only its identity can
      retrieve the new service. `signaturesOf` is `getApplicationSignatures`,
      which yields an empty list when the lookup fails. */
  function SetPaymentDetailsUpdateService(
    g: Gate, callerName: Option<string>, signaturesOf: string -> seq<Signature>, service: UpdateService)
    : (g': Gate)
    ensures Valid(g')
    ensures forall id :: GetUpdateService(g', id) ==
              if callerName.Some? && id == ApplicationIdentity(callerName.value, signaturesOf(callerName.value))
              then Ok(Some(service)) else Err(IllegalState)
  {
    Gate(CallerIdentity(callerName, signaturesOf), Some(service))
  }

  /** The calls the browser can make on the binder. `updateWith` and
      `paymentDetailsNotUpdated` are no-ops on this binder. */
  datatype Event =
    | SetService(callerName: Option<string>, signaturesOf: string -> seq<Signature>, service: UpdateService)
    | UpdateWith
    | NotUpdated

  function Step(g: Gate, e: Event): Gate {
    match e
    case SetService(name, sigs, service) => SetPaymentDetailsUpdateService(g, name, sigs, service)
    case UpdateWith => g
    case NotUpdated => g
  }

  /** The gate after a sequence of calls on a fresh binder. */
  function Run(events: seq<Event>): Gate
    decreases |events|
  {
    if |events| == 0 then Fresh() else Step(Run(events[..|events| - 1]), events[|events| - 1])
  }

  /** The index of the last `setPaymentDetailsUpdateService` call, if any. */
  function LastSet(events: seq<Event>): (k: Option<nat>)
    ensures k.Some? ==> k.value < |events| && events[k.value].SetService?
                        && forall j :: k.value < j < |events| ==> !events[j].SetService?
    ensures k.None? ==> forall j :: 0 <= j < |events| ==> !events[j].SetService?
    decreases |events|
  {
    if |events| == 0 then None
    else if events[|events| - 1].SetService? then Some(|events| - 1)
    else LastSet(events[..|events| - 1])
  }

  /** Whatever the history, retrieval succeeds exactly for the identity of
      the latest setter, and yields that setter's service; before any setter,
      or when the latest setter had no package name, it always throws. */
  lemma {:induction false} LatestSetterWins(events: seq<Event>, id: ApplicationIdentity)
    ensures Valid(Run(events))
    ensures GetUpdateService(Run(events), id) ==
              match LastSet(events)
              case None => Err(IllegalState)
              case Some(k) =>
                var e := events[k];
                if e.callerName.Some? && id == ApplicationIdentity(e.callerName.value, e.signaturesOf(e.callerName.value))
                then Ok(Some(e.service)) else Err(IllegalState)
    decreases |events|
  {
    if |events| > 0 {
      var prefix := events[..|events| - 1];
      LatestSetterWins(prefix, id);
      if !events[|events| - 1].SetService? {
        assert LastSet(events) == LastSet(prefix);
        if LastSet(prefix).Some? {
          assert events[LastSet(prefix).value] == prefix[LastSet(prefix).value];
        }
      }
    }
  }

  /** The update callbacks never touch the gate: a history that ends in
      one retrieves exactly what the history before it did. */
  lemma CallbacksLeaveGate(events: seq<Event>, e: Event, id: ApplicationIdentity)
    requires !e.SetService?
    ensures Run(events + [e]) == Run(events)
    ensures GetUpdateService(Run(events + [e]), id) == GetUpdateService(Run(events), id)
  {
    assert (events + [e])[..|events|] == events;
  }

  /** The binder as the service holds it: one mutable gate. */
  class LocalBinder {
    var gate: Gate

    constructor()
      ensures gate == Fresh()
    {
      gate := Fresh();
    }

    /** The binder's `setPaymentDetailsUpdateService` entry point. */
    method OnSetPaymentDetailsUpdateService(
      callerName: Option<string>, signaturesOf: string -> seq<Signature>, service: UpdateService)
      modifies this
      ensures gate == SetPaymentDetailsUpdateService(old(gate), callerName, signaturesOf, service)
    {
      gate := SetPaymentDetailsUpdateService(gate, callerName, signaturesOf, service);
    }

    /** The binder's `getUpdateService`. A refused retrieval changes nothing:
        the method does not write the gate. */
    method RequestUpdateService(appIdentity: ApplicationIdentity) returns (r: Result<Option<UpdateService>>)
      ensures r.Ok? <==> gate.remoteCallerIdentity == Some(appIdentity)
      ensures r.Ok? ==> r.value == gate.updateService
      ensures r.Err? ==> r.fault == IllegalState
    {
      r := GetUpdateService(gate, appIdentity);
    }
  }
}

=== FILE: update_rpc.dfy ===
/** The three requests a payment screen can make of the browser's
    `IPaymentDetailsUpdateService`. The payment-method request carries a
    "details" JSON object; its text rendering (`JSONObject.toString`) is not
    modelled, the object itself is. */
module UpdateRpc {
  import opened Bundles

  /** The method name the legacy screens hard-code. */
  const SamplePayWebApp: string := "https://sample-pay-web-app.firebaseapp.com"

  /** The fixed "details" both payment screens return. */
  const PaymentDetailsJson: string := "{\"token\": \"put-some-data-here\"}"

  datatype UpdateRequest =
    | ChangePaymentMethod(methodName: string, details: map<string, string>)
    | ChangeShippingOption(shippingOptionId: string)
    | ChangeShippingAddress(address: Bundle)

  /** The method data of a promotion-code change: the details object has the
      single member "promotionCode". */
  function PromotionCodeChange(methodName: string, promotionCode: string): (r: UpdateRequest)
    ensures r.ChangePaymentMethod? && r.methodName == methodName
    ensures r.details.Keys == {"promotionCode"} && r.details["promotionCode"] == promotionCode
  {
    ChangePaymentMethod(methodName, map["promotionCode" := promotionCode])
  }
}

=== FILE: wrappers.dfy ===
/** Failure-compatible wrappers shared by the whole model.

    Kotlin's nullable types become `Option`; a thrown exception becomes
    `Err(fault)` of a `Result`, with `Fault` naming which exception it was. */
module Wrappers {

  datatype Option<+T> = None | Some(value: T) {
    predicate IsFailure() { None? }

    function PropagateFailure<U>(): Option<U>
      requires None?
    {
      None
    }

    function Extract(): T
      requires Some?
    {
      value
    }

    /** Kotlin's `?:` with a default. */
    function GetOr(default: T): T {
      match this
      case Some(v) => v
      case None => default
    }
  }

  /** The exceptions the modelled code can raise. */
  datatype Fault =
    | NullPointer(what: string)          // a `!!` on null, or null stored into a non-null property
    | RuntimeJson                        // RuntimeException("Cannot parse JSON") wrapping a JSONException
    | NumberFormat(text: string)         // String.toInt(16) on text that is not a number
    | NameNotFound(packageName: string)  // PackageManager.getPackageInfo of a package that is not installed
    | ClassCast(key: string)             // a saved-state entry read as the wrong type
    | IllegalState                       // identity mismatch on the update channel
    | UninitializedProperty(name: string)  // a read of a `lateinit` property never assigned

  datatype Result<+T> = Ok(value: T) | Err(fault: Fault) {
    predicate IsFailure() { Err? }

    function PropagateFailure<U>(): Result<U>
      requires Err?
    {
      Err(fault)
    }

    function Extract(): T
      requires Ok?
    {
      value
    }
  }
}
